=== FILE: README.md ===
# PromptBridge core, modelled in Dafny

PromptBridge is a browser extension. The user selects text on a page, picks one of their
saved prompts, and the extension sends the prompt text plus the selection to an
OpenAI-compatible chat-completions API. The reply is shown in an overlay. This project
models the extension's logic as pure Dafny functions and proves properties about them.

- **`session.dfy`** (`Session`) covers the page-injected script (`content.js` and
  `js/content.js`). It is a state machine over the selection menu, the result overlay, the
  `isProcessing` gate and the outstanding asynchronous continuations. Each browser event or
  callback is an `Event`, and `Step` applies it.
- **`geometry.dfy`** (`Geometry`) holds the numbers the page script computes: the nine
  menu-position presets, the overlay's placement under the selection, its content-fitted
  size, and the bottom-edge adjustment.
- **`relay.dfy`** (`Relay`) covers the background script (`background.js`):
  - the chat request `callAPI` builds, and how its outcome maps to `{success, data|error}`;
  - the context-menu item list built from the prompts;
  - how a context-menu click is routed back to the page as `executePrompt`.
- **`options.dfy`** (`Options`) covers the options page (`options.js` and `js/options.js`):
  - adding, updating, deleting, editing and cancelling prompts;
  - settings validation and saving, with and without the result-size inputs;
  - loading settings with their defaults;
  - the model-list fetch with its sorted result.
- **`markdown.dfy`** (`Markdown`) covers `parseMarkdown` (`markdown-parser.js`):
  - the HTML escape and its inverse;
  - the delimited spans (inline code, bold, italic, strikethrough);
  - the line-anchored header, blockquote and horizontal-rule rewrites;
  - the final line-break pass.
- **Helpers:**
  - `text.dfy` has JavaScript's `trim`, its white-space set and the line terminators that
    regular expressions use.
  - `numbers.dfy` has `parseInt` without a radix, and number-to-string.
  - `sorting.dfy` is a sort by an arbitrary total preorder, which stands for
    `localeCompare`.
  - `store.dfy` has the stored prompt record.
  - `wrappers.dfy` has `Option` and `Result`.

Storage reads and writes, `fetch`, cross-script messages and the DOM are not executed. Their
results are inputs:
- a storage callback is an event carrying the values read;
- a write is an optional error message;
- an HTTP outcome is a datatype value.

Two selections whose settings reads are both still
outstanding leave the first menu attached to the page but no longer referenced, so nothing
can remove it (`Session.InterleavedReadsOrphanAMenu`).

## Model

| member | source | states |
|---|---|---|
| Text.Trim | options.js:315-316 | `trim` removes leading and trailing white space: the result is a slice of the input with only white space before and after it, and it neither starts nor ends with white space |
| Text.TrimEmptyIffBlank | content.js:466-469 | a string trims to empty exactly when every character is white space |
| Text.TrimFixed | js/options.js:260-261 | trimming an already trimmed string changes nothing, so trimming is idempotent |
| Numbers.ParseIntOfIntToString | background.js:73 | `parseInt` reads the decimal text of an integer back to that integer (for unbounded integers; see Left out for the double-precision bound) |
| Relay.JoinUrl | background.js:88-90 | a base ending in `/` gets the path appended directly; any other base gets `/` and then the path; the result always ends with `/` + path |
| Relay.BuildChatRequest | background.js:92-108 | one user-role message holding the full prompt, the configured model, a `Bearer` token and no referrer, posted to the API URL joined to `chat/completions` with exactly one `/` |
| Relay.CallApiResult | background.js:110-118 | success exactly for a 2xx response whose body parses; a non-2xx status becomes `API error: <status> <text>`; a network error becomes its message, and a 2xx body that fails to parse becomes the parse error's message |
| Relay.PromptItems | background.js:26-33 | one item per prompt, in list order, with id `prompt-<i>` and the prompt's name as title |
| Relay.ContextMenuShape | background.js:14-50 | the parent item first, then the prompt items (selection context only), then a separator exactly when prompts exist, and settings last |
| Relay.RoutePromptItem | background.js:69-81 | the click on `prompt-<i>` sends `executePrompt` with index `i`; the id round-trips through `parseInt` |
| Relay.RouteEveryItem | background.js:69-83 | every built item routes as intended: prompt `i` runs prompt `i`, settings opens the options page, the parent and the separator do nothing |
| Relay.RebuildOnChange | background.js:62-66 | the context menu is rebuilt exactly for a change to `prompts` in the sync area |
| Sorting.InsertionSort | options.js:213 | the result is a permutation of the input and is sorted by the comparison |
| Geometry.MenuPositionByCell | content.js:107-161 | for each of the nine presets, the menu anchor is the cursor shifted by the column's x offset and the row's y offset |
| Geometry.UnknownPresetIsMiddleCenter | content.js:153-156 | any name that is not a preset places the menu as middle-center, centred 22 px from the cursor |
| Geometry.OverlayPosition | content.js:269-302 | without a selection range, the overlay goes at the cursor plus scroll; otherwise it is 10 px below the selection and clamped to the viewport's left padding; when it fits, the right padding too |
| Geometry.OverlayXIsClampedCentre | content.js:283-299 | the overlay's x is the selection's centre clamped first against the right edge, then against the left edge |
| Geometry.FixedWidthOverlayPosition | js/content.js:266-300 | the same placement for a fixed 500 px overlay |
| Geometry.OverlayPlacement | content.js:367-373 | the overlay's `top` is 10 px below the selection (or the cursor plus scroll without a range); its `left` is the computed placement, and with a range but no stored width the left is `NaN` and is not set |
| Geometry.FitDimension | content.js:328-333 | one dimension is the natural size capped by the maximum and raised to the floor: exactly the natural size when it fits, the maximum when it overflows, the floor when it is smaller; no value without a maximum |
| Geometry.OptimalOverlaySize | content.js:305-337 | width from content plus 36, height from content plus header plus 16, each capped by its stored maximum and raised to 200 by 100; a size setting never saved leaves that dimension unset |
| Geometry.OptimalOverlaySizeIsClamped | content.js:328-333 | each dimension equals its natural size clamped between the floor and the stored maximum, or the floor when the maximum is below it |
| Geometry.AdjustedTop | content.js:340-364 | an overlay that fits is left in place; otherwise it is aligned 10 px above the viewport bottom, but never above 10 px below the viewport top |
| Geometry.AdjustedTopIdempotent | js/content.js:303-327 | adjusting an already adjusted overlay moves it no further, also for an overlay taller than the viewport |
| Session.ReplyText | content.js:71-82 | the overlay shows the first choice's content, the format error when there is none, or `Error accessing API: <error>` on failure |
| Session.FullPrompt | content.js:57 | the full prompt is the prompt text, a blank line, and then the selection |
| Session.TogglePromptButtons | content.js:95-104 | without a menu nothing happens; otherwise every button takes the opposite of the first button's display state |
| Session.NewMenu | content.js:180-236 | a new menu has one hidden button per stored prompt, carrying those prompts, or one hidden settings button when there are none; it is anchored by `calculateMenuPosition` at the stored preset, or at the cursor shifted 22 px up and left when none is stored; hover opens it only when that setting is stored as true |
| Session.CreateSelectionMenu | content.js:163-176 | while processing, nothing happens; otherwise the menu is removed, and a settings read starts exactly when the trimmed selection is non-empty |
| Session.StepPreservesWellFormed | js/content.js:160-241 | every event keeps the menu at exactly one display flag per button |
| Session.RightClickIgnored | content.js:450-452 | a right-button release changes nothing |
| Session.BlankSelectionOpensNoMenu | content.js:464-469 | a release with a white-space-only selection creates no menu and starts no read |
| Session.ProcessingGate | content.js:163-167 | while processing, a release, an outside click or a context menu neither removes the menu nor starts a read |
| Session.EscapeRemovesAll | content.js:489-498 | Escape removes both the overlay and the menu, whatever the gate |
| Session.ExecuteMissingPrompt | content.js:512-525 | an `executePrompt` index that is not a position in the stored list shows `Error: Prompt not found` and sends nothing |
| Session.ExecuteStoredPrompt | content.js:514-522 | a valid index runs that stored prompt on the given text, bypassing the gate |
| Session.ReplyFinishes | content.js:66-83 | a relay reply clears the gate, removes the menu and shows the reply text; exactly the answered request leaves the outstanding list, and no menu is orphaned |
| Session.UnconfiguredSendsNothing | content.js:48-54 | with the URL, token or model missing, there is an alert and no request, the gate keeps its value, and only the answered read leaves the outstanding list |
| Session.ConfiguredSendsPrompt | content.js:56-66 | with all settings present, exactly one `callAPI` message goes out, carrying the prompt text, a blank line and the selection; the answered read is replaced by one awaited reply at the end, and the gate, menu, overlay and orphan count are unchanged |
| Session.ProcessingChanges | js/content.js:20-89 | the gate is set only by a prompt-button click and cleared only by a reply or a failed send |
| Session.ContextMenuRunsPrompt | content.js:509-527 | the context-menu item for prompt `i` runs the `i`-th stored prompt on the selection |
| Session.StuckPersists | content.js:163-167 | once the gate is set with no reply outstanding, only a new prompt click or an `executePrompt` can change that |
| Session.MissingConfigLeavesGateSet | content.js:47-54 | after a prompt click whose settings lack a token, the gate stays set, and a later release only records the cursor |
| Session.InterleavedReadsOrphanAMenu | content.js:180-241 | when two settings reads are outstanding and both answer, the first menu is left attached and unreferenced |
| Session.SummarizeSendsOneRequest | content.js:24-66 | selecting text, opening the menu and clicking a prompt sends exactly one request, with the prompt text, a blank line and the selection |
| Session.SummarizeReplyShown | content.js:71-75 | a successful reply shows the first choice's content and clears the gate |
| Session.FailedReplyScenario | content.js:79-82 | a failed reply shows the error and clears the gate, so the next selection opens a menu again |
| Options.WritePrompt | options.js:327-339 | without an edit index the prompt is appended; with one it replaces that entry, and the other entries are kept |
| Options.AddPrompt | options.js:314-358 | a blank name or text is rejected and nothing else changes; a failed write keeps the list; otherwise the trimmed prompt is written, the form is cleared and editing ends |
| Options.WritePromptKeepsTrimmed | options.js:327-339 | writing a trimmed prompt, appended or in place, keeps every stored prompt trimmed |
| Options.AddPromptKeepsTrimmed | js/options.js:259-285 | stored prompts stay non-empty and trimmed |
| Options.Splice | options.js:365 | `splice(i, 1)` removes exactly entry `i` when it exists, keeping the others in order |
| Options.DeletePromptAsWritten | options.js:361-378 | the entry is removed and written back; the edit index and the form are left as they were |
| Options.DeletePrompt | js/options.js:306-323 | corrected delete: the edit index keeps pointing at the prompt being edited, and deleting that prompt ends the edit |
| Options.DeletePromptKeepsTrimmed | js/options.js:306-323 | deleting keeps the remaining prompts trimmed |
| Options.EditPrompt | options.js:381-396 | an existing entry fills the form and becomes the edited one; any other index does nothing |
| Options.CancelEdit | options.js:399-405 | the form is cleared and editing ends; the list is untouched |
| Options.EditorKeepsIndexInRange | js/options.js:259-350 | add, corrected delete, edit and cancel all keep the edit index inside the list |
| Options.DeleteWhileEditingAppends | options.js:327-351 | after editing the third of three prompts and deleting the first, saving appends a new entry and keeps the stale one, while reporting an update |
| Options.DeleteWhileEditingUpdates | js/options.js:272-277 | with the corrected delete, the same steps update the prompt that was being edited |
| Options.CheckDimension | options.js:106-118 | a size is accepted exactly when it parses to a positive integer within the parsed bounds; a bound that does not parse (NaN) never rejects |
| Options.SaveSettings | options.js:88-154 | URL, token and model are required, then the width, then the height; the first failure is reported and nothing is written; otherwise all seven keys are written and the status is `Settings saved successfully!`, or `Save error: ` and the message when the write fails |
| Options.SaveSettingsBasic | js/options.js:68-99 | without size inputs, only URL, token and model are required, and exactly five keys are written |
| Options.CheckedPosition | options.js:92 | the checked radio's value, or `middle-center` when none is checked or its value is empty |
| Options.NumberOr | options.js:80-81 | a stored size that is absent or 0 takes the default |
| Options.LoadSettings | options.js:39-85 | fields are filled from storage; the defaults are middle-center, no hover, and sizes 500 and 600 |
| Options.SizeText | options.js:82-83 | the text written into a size input parses back to the stored number |
| Options.SaveLoadRoundTrip | options.js:39-154 | what a successful save writes loads back unchanged, so saving the reloaded form writes the same settings |
| Options.FetchModels | options.js:157-239 | a request is made exactly when URL and token are given and the URL parses; it goes to `<url>/models` with one slash; a listed body gives the ids, sorted, and a count |
| Markdown.ReplaceCharAppend | markdown-parser.js:12-14 | a global one-character replacement rewrites each character on its own |
| Markdown.Escape | markdown-parser.js:12-14 | after escaping, the text contains no `<` and no `>` |
| Markdown.EscapeCons | markdown-parser.js:12-14 | because `&` is escaped first, escaping acts character by character and no entity is escaped twice |
| Markdown.UnescapeEscape | markdown-parser.js:12-14 | unescaping the escaped text gives back the input exactly |
| Markdown.SpansPlain | markdown-parser.js:23 | text without the delimiter character is left unchanged by a span rewrite |
| Markdown.SpanOf | markdown-parser.js:31-39 | a delimited run whose content is non-empty and free of the delimiter is wrapped in the tags |
| Markdown.InlineCodeOf | markdown-parser.js:23 | `` `x` `` with no backquote inside becomes `<code>x</code>` |
| Markdown.StrikeOf | markdown-parser.js:39 | `~~x~~` with no tilde inside becomes `<del>x</del>` |
| Markdown.MapLinesCons | markdown-parser.js:26-28 | a line-anchored rewrite acts on each line separately and keeps the terminators |
| Markdown.HeaderLevel3 | markdown-parser.js:26-28 | `### x` becomes `<h3>x</h3>` and is never taken for a level 2 or level 1 header |
| Markdown.HeaderLevel2 | markdown-parser.js:26-28 | `## x` becomes `<h2>x</h2>` |
| Markdown.HeaderLevel1 | markdown-parser.js:26-28 | `# x` becomes `<h1>x</h1>` |
| Markdown.RuleLine | markdown-parser.js:62 | a line becomes `<hr>` exactly when it is `---`, `___` or `***` |
| Markdown.QuoteMatch | markdown-parser.js:59 | a match needs `&gt;` (any letter case), then only white space up to the captured text, which is non-empty and runs to the end of its line; conversely, `&gt;` followed by a white-space run (line ends included) and then a character that ends no line always matches |
| Markdown.QuoteOfLine | markdown-parser.js:59 | the escaped line `&gt; x` becomes `<blockquote>x</blockquote>` |
| Markdown.QuoteJoinsNextLine | markdown-parser.js:59 | because `\s` also matches a line end, a bare `&gt;` line quotes the line after it |
| Markdown.RawQuoteLine | markdown-parser.js:12-14 | a raw `> x` reply line is escaped and then quoted |
| Markdown.BlockquotesPlain | markdown-parser.js:59 | text without `&` is left unchanged by the blockquote pass |
| Markdown.LineBreaks | markdown-parser.js:65-66 | the output of the line-break pass contains no newline |
| Markdown.HardBreak | markdown-parser.js:65 | two spaces and a newline become a single `<br>` |
| Markdown.SoftBreak | markdown-parser.js:66 | a newline not preceded by two spaces becomes `<br>` |
| Markdown.ParseMarkdown | markdown-parser.js:6-69 | empty input renders as empty, and the rendered output never contains a newline |
| Markdown.RenderHeaderLine | markdown-parser.js:9-68 | end to end, a `### ` line of ordinary text renders as a level-3 header |

## Left out

- DOM construction, CSS classes, button labels, the drag handlers (`onMouseMove`,
  `onMouseUp`) and `requestAnimationFrame` are not modelled. Only the numbers and the state
  flags they produce are kept.
- `fetch`, extension storage and cross-script messaging are not executed. Their results
  are event parameters, a storage write is an optional error message, and a fetch is an
  outcome datatype.
- Session.Step: the 10 ms `setTimeout` after a mouse release is folded into the release
  event, so the selection is read when the button is released.
- Session.Step: `createResultOverlay`'s storage read of the overlay size is folded in, so
  the overlay appears at once. Its size and position are modelled on their own in
  `Geometry` and are not part of the session state. This fold hides a second orphan. Two
  overlay reads can be outstanding at once, for two replies, or for a reply and a
  "Prompt not found", since `executePrompt` bypasses the gate. Both callbacks then build
  an overlay, and the first is left on the page unreferenced, by the same mechanism as
  `Session.InterleavedReadsOrphanAMenu`. The model does not count overlay orphans.
- Relay.CompletionData: the decoded body is always an object and a message's `content` is
  always a string. A 2xx `null` body makes `data.choices` throw inside the reply callback
  after the gate is cleared and the menu removed, so no overlay appears. A `null` content
  shows an empty overlay. Neither case is represented.
- Session.Step: the hover handlers use the `openOnHover` flag the menu was built with. A
  click on the menu is an `onMenu` flag rather than a DOM containment test.
- Session.Step: both versions of the page script share one state machine, which leaves
  out how they differ around the result overlay. content.js reads the stored size
  settings before building the overlay, places it using the stored width, and after the
  next frame sizes it to its content (content.js:305-337 and 416-435). js/content.js
  builds the overlay at once with a fixed 500 px width and no content sizing
  (js/content.js:384-391), and takes its storage accessor from js/utils.js, which is not
  part of this model. The two placements are `Geometry.OverlayPlacement` with
  `Geometry.OverlayPosition` and `Geometry.FixedWidthOverlayPosition`.
- Coordinates are real numbers. Floating-point rounding is not modelled.
- Numbers.ParseIntOfIntToString: integers are unbounded here, but JavaScript numbers are
  doubles. `${i}` switches to exponent notation from 1e21, and `parseInt` rounds decimal
  text above 2^53, so in the program the round trip holds only for magnitudes below 2^53.
  Prompt indices are far below that bound.
- Options.AddPrompt, Options.WritePrompt: an edit index past the end of the list is
  excluded by their precondition. In JavaScript that write leaves a hole in the array.
  `addPrompt` re-reads the list from storage before writing (options.js:324-325), and the
  page has no storage-change listener. So the index can run past the end in two ways: the
  delete-while-editing defect listed under Findings, or another options page or a synced
  device shortening the list between Edit and Save.
- Options.LoadSettings: the model select's option markup and its disabled state are not
  modelled; only the selected value is.
- Options.FetchModels: restoring the previously selected model into the select is not
  modelled.
- Options.FetchModels: every listed entry is assumed to carry a string `id`, because the
  body is modelled as a list of ids. With two or more entries, one lacking a string `id`
  makes the `localeCompare` call at options.js:213 throw. By then "Found N models" is
  shown and the select has been emptied. The catch then shows `Connection error: …` and
  lists no models. A single such entry is never compared and is listed as `undefined`.
- Options.FetchModels: the `new URL` check is an input flag, because URL parsing is outside
  the model.
- Options.FetchModels: `localeCompare` is an arbitrary total preorder, given as a
  parameter.
- Options.SaveSettings: the radio buttons' values and the size inputs' `min` and `max`
  attributes come from `options.html`, which is not part of this model. The bounds are
  inputs, and the round trip assumes the radio values are the preset names.
- The status line's automatic hiding after a delay and its choice of panel are not
  modelled.
- Numbers.ParseInt: `parseInt` is modelled for string arguments without a radix, which is
  every use in the code. Non-string arguments are not modelled.
- Markdown.ParseMarkdown: the fenced-code pass (lines 17-20) is a function parameter, taken
  in its source position. Its lazy multi-line match and `trim` of the code are not
  modelled.
- Markdown.ParseMarkdown: the link pass (line 42) is a function parameter, taken in its
  source position. Its two-part regular expression is not modelled.
- Markdown.ParseMarkdown: the list passes (lines 45-56) are a function parameter, taken in
  their source position. Their `s`-flag wrapping and lookahead are not modelled.
- `popup.js` and `js/utils.js` are not part of this model.

## Findings

| source | as written | input that shows it | evidently intended | confidence | as-written member | corrected member |
|---|---|---|---|---|---|---|
| options.js:361-378 (also js/options.js:306-323) | `deletePrompt` splices the list but leaves `editingIndex` unchanged, so an edit in progress now points one entry too far, or past the end | prompts `[a, b, c]`; click Edit on `c` (index 2); delete `a`; save the edit with new text. The list becomes `[b, c, c']` with the status "Prompt updated successfully!" | the edited prompt is updated in place: `[b, c']`. The edit index follows its prompt, and deleting the edited prompt ends the edit | high (not executed) | Options.DeleteWhileEditingAppends | Options.DeleteWhileEditingUpdates |

=== FILE: geometry.dfy ===
/**
 * Placement arithmetic of the injected script: where the selection menu is anchored
 * relative to the cursor, where the result overlay goes relative to the selection,
 * how large the overlay is made, and how it is pulled back above the viewport bottom.
 * Coordinates are exact reals (CSS pixels).
 */
module Geometry {
  import opened Wrappers

  datatype Point = Point(x: real, y: real)

  /** Half of the 44px menu footprint (36px button plus 4px padding on each side). */
  const ButtonHalf: real := 22.0
  /** Distance from the cursor for the non-centred presets. */
  const Offset: real := 50.0

  /** Rows and columns of the nine anchor presets. */
  datatype Row = Top | Middle | Bottom
  datatype Column = Left | Center | Right

  function RowName(r: Row): string {
    match r
    case Top => "top"
    case Middle => "middle"
    case Bottom => "bottom"
  }

  function ColumnName(c: Column): string {
    match c
    case Left => "left"
    case Center => "center"
    case Right => "right"
  }

  /** The preset name `<row>-<column>` the settings page stores. */
  function PresetName(r: Row, c: Column): string {
    RowName(r) + "-" + ColumnName(c)
  }

  predicate IsPresetName(p: string) {
    exists r: Row, c: Column :: p == PresetName(r, c)
  }

  /** The default preset is one of the nine. */
  lemma MiddleCenterIsPreset()
    ensures IsPresetName("middle-center")
  {
    assert PresetName(Middle, Center) == "middle-center";
  }

  /** Horizontal shift of a column: left -50, center -22, right +6. */
  function ColumnShift(c: Column): real {
    match c
    case Left => -50.0
    case Center => -22.0
    case Right => 6.0
  }

  /** Vertical shift of a row: top -50, middle -22, bottom +6. */
  function RowShift(r: Row): real {
    match r
    case Top => -50.0
    case Middle => -22.0
    case Bottom => 6.0
  }

  /** `calculateMenuPosition`: the switch over the nine preset names, middle-center by default. */
  function MenuPosition(cursor: Point, preset: string): Point {
    var x := cursor.x;
    var y := cursor.y;
    if preset == "top-left" then Point(x - Offset, y - Offset)
    else if preset == "top-center" then Point(x - ButtonHalf, y - Offset)
    else if preset == "top-right" then Point(x + Offset - 2.0 * ButtonHalf, y - Offset)
    else if preset == "middle-left" then Point(x - Offset, y - ButtonHalf)
    else if preset == "middle-center" then Point(x - ButtonHalf, y - ButtonHalf)
    else if preset == "middle-right" then Point(x + Offset - 2.0 * ButtonHalf, y - ButtonHalf)
    else if preset == "bottom-left" then Point(x - Offset, y + Offset - 2.0 * ButtonHalf)
    else if preset == "bottom-center" then Point(x - ButtonHalf, y + Offset - 2.0 * ButtonHalf)
    else if preset == "bottom-right" then Point(x + Offset - 2.0 * ButtonHalf, y + Offset - 2.0 * ButtonHalf)
    else Point(x - ButtonHalf, y - ButtonHalf)
  }

  /**
   * The menu's x depends only on the preset's column and its y only on its row:
   * for every named preset the anchor is the cursor shifted by the column and row shifts.
   */
  lemma MenuPositionByCell(cursor: Point, r: Row, c: Column)
    ensures MenuPosition(cursor, PresetName(r, c))
         == Point(cursor.x + ColumnShift(c), cursor.y + RowShift(r))
  {
    match r
    case Top =>
      match c {
        case Left => assert PresetName(r, c) == "top-left";
        case Center => assert PresetName(r, c) == "top-center";
        case Right => assert PresetName(r, c) == "top-right";
      }
    case Middle =>
      match c {
        case Left => assert PresetName(r, c) == "middle-left";
        case Center => assert PresetName(r, c) == "middle-center";
        case Right => assert PresetName(r, c) == "middle-right";
      }
    case Bottom =>
      match c {
        case Left => assert PresetName(r, c) == "bottom-left";
        case Center => assert PresetName(r, c) == "bottom-center";
        case Right => assert PresetName(r, c) == "bottom-right";
      }
  }

  /** Any string that names no preset is placed exactly like middle-center. */
  lemma UnknownPresetIsMiddleCenter(cursor: Point, preset: string)
    requires !IsPresetName(preset)
    ensures MenuPosition(cursor, preset) == MenuPosition(cursor, PresetName(Middle, Center))
    ensures MenuPosition(cursor, preset) == Point(cursor.x - 22.0, cursor.y - 22.0)
  {
    assert "top-left" == PresetName(Top, Left);
    assert "top-center" == PresetName(Top, Center);
    assert "top-right" == PresetName(Top, Right);
    assert "middle-left" == PresetName(Middle, Left);
    assert "middle-center" == PresetName(Middle, Center);
    assert "middle-right" == PresetName(Middle, Right);
    assert "bottom-left" == PresetName(Bottom, Left);
    assert "bottom-center" == PresetName(Bottom, Center);
    assert "bottom-right" == PresetName(Bottom, Right);
  }

  /** The part of `getBoundingClientRect()` of the selection range that placement reads. */
  datatype Rect = Rect(left: real, width: real, bottom: real)

  /** Scroll offsets and inner size of the window. */
  datatype Viewport = Viewport(scrollX: real, scrollY: real, innerWidth: real, innerHeight: real)

  /** Gap kept between the overlay and the viewport edges, and below the selection. */
  const EdgePadding: real := 10.0

  /**
   * `calculateOverlayPosition`: without a selection range the overlay goes at the last
   * cursor position (in page coordinates); otherwise it is centred under the range,
   * pushed left to keep the right padding, then pushed right to keep the left padding.
   */
  function OverlayPosition(range: Option<Rect>, lastMouse: Point, vp: Viewport, overlayWidth: real): (p: Point)
    ensures range.None? ==> p == Point(lastMouse.x + vp.scrollX, lastMouse.y + vp.scrollY)
    ensures range.Some? ==> p.y == range.value.bottom + vp.scrollY + 10.0
    ensures range.Some? ==> p.x >= vp.scrollX + 10.0
    ensures range.Some? && vp.innerWidth >= overlayWidth + 20.0 ==>
              p.x + overlayWidth <= vp.scrollX + vp.innerWidth - 10.0
  {
    match range
    case None => Point(lastMouse.x + vp.scrollX, lastMouse.y + vp.scrollY)
    case Some(rect) =>
      var centred := rect.left + vp.scrollX + rect.width / 2.0 - overlayWidth / 2.0;
      var y := rect.bottom + vp.scrollY + EdgePadding;
      var x1 := if centred + overlayWidth > vp.scrollX + vp.innerWidth - EdgePadding
                then vp.scrollX + vp.innerWidth - overlayWidth - EdgePadding
                else centred;
      var x2 := if x1 < vp.scrollX + EdgePadding then vp.scrollX + EdgePadding else x1;
      Point(x2, y)
  }

  /** Where `createOverlayContainer` puts the overlay: its `left` and `top` styles. */
  datatype Placement = Placement(left: Option<real>, top: real)

  /**
   * `createOverlayContainer` with the stored `resultWidth`, which is absent until the
   * settings page has saved the size settings. With a selection range an absent width
   * makes the computed left `NaN`; the browser ignores `NaNpx`, so no `left` is set.
   */
  function OverlayPlacement(range: Option<Rect>, lastMouse: Point, vp: Viewport, storedWidth: Option<real>): (r: Placement)
    ensures range.None? ==> r == Placement(Some(lastMouse.x + vp.scrollX), lastMouse.y + vp.scrollY)
    ensures range.Some? ==> r.top == range.value.bottom + vp.scrollY + 10.0
    ensures range.Some? ==> (r.left.Some? <==> storedWidth.Some?)
    ensures range.Some? && storedWidth.Some? ==>
              r.left == Some(OverlayPosition(range, lastMouse, vp, storedWidth.value).x)
  {
    match storedWidth
    case Some(w) =>
      var p := OverlayPosition(range, lastMouse, vp, w);
      Placement(Some(p.x), p.y)
    case None =>
      var p := OverlayPosition(range, lastMouse, vp, 0.0);
      Placement(if range.None? then Some(p.x) else None, p.y)
  }

  function Max(a: real, b: real): real { if a >= b then a else b }
  function Min(a: real, b: real): real { if a <= b then a else b }

  /**
   * The horizontal placement is the centred position clamped into the band that keeps
   * both paddings; when the viewport is too narrow for that band the left padding wins.
   */
  lemma OverlayXIsClampedCentre(rect: Rect, lastMouse: Point, vp: Viewport, overlayWidth: real)
    ensures var lo := vp.scrollX + 10.0;
            var hi := vp.scrollX + vp.innerWidth - overlayWidth - 10.0;
            var centred := rect.left + vp.scrollX + rect.width / 2.0 - overlayWidth / 2.0;
            OverlayPosition(Some(rect), lastMouse, vp, overlayWidth).x
              == (if lo <= hi then Max(lo, Min(centred, hi)) else lo)
  {
  }

  /** The overlay width js/content.js uses, fixed in the script. */
  const FixedOverlayWidth: real := 500.0

  /**
   * js/content.js's `calculateOverlayPosition`: the same placement with the width fixed
   * at 500, so a viewport at least 520 wide keeps the whole overlay inside both paddings.
   */
  function FixedWidthOverlayPosition(range: Option<Rect>, lastMouse: Point, vp: Viewport): (p: Point)
    ensures range.Some? ==> p.x >= vp.scrollX + 10.0
    ensures range.Some? && vp.innerWidth >= 520.0 ==> p.x + 500.0 <= vp.scrollX + vp.innerWidth - 10.0
    ensures range.Some? ==> p.y == range.value.bottom + vp.scrollY + 10.0
    ensures range.None? ==> p == Point(lastMouse.x + vp.scrollX, lastMouse.y + vp.scrollY)
  {
    OverlayPosition(range, lastMouse, vp, FixedOverlayWidth)
  }

  /**
   * The `width` and `height` styles `setOptimalOverlaySize` sets. A missing maximum (the
   * size settings were never saved) makes that dimension `NaN`, which the browser
   * ignores: `None` stands for that ignored assignment.
   */
  datatype Size = Size(width: Option<real>, height: Option<real>)

  /** What `setOptimalOverlaySize` measures: the content's natural size and the header height. */
  datatype Measured = Measured(contentWidth: real, contentHeight: real, headerHeight: Option<real>)

  const MinOverlayWidth: real := 200.0
  const MinOverlayHeight: real := 100.0

  /** `v` limited to the interval from `lo` to `hi`. */
  function Clamp(v: real, lo: real, hi: real): (r: real)
    requires lo <= hi
    ensures lo <= r <= hi
    ensures lo <= v <= hi ==> r == v
  {
    if v < lo then lo else if v > hi then hi else v
  }

  /** One dimension: `Math.max(Math.min(natural, max), floor)`, `NaN` when `max` is absent. */
  function FitDimension(natural: real, max: Option<real>, floor: real): (r: Option<real>)
    ensures r.Some? <==> max.Some?
    ensures r.Some? ==> r.value >= floor
    ensures max.Some? && max.value >= floor ==> r.value <= max.value
    ensures max.Some? && natural > max.value >= floor ==> r.value == max.value
    ensures max.Some? && floor <= natural <= max.value ==> r.value == natural
    ensures max.Some? && natural < floor ==> r.value == floor
  {
    match max
    case None => None
    case Some(m) => Some(Max(Min(natural, m), floor))
  }

  /**
   * `setOptimalOverlaySize`: nothing happens without an overlay (or its content element);
   * otherwise width is min(content + 16 padding + 20 scrollbar, max) and height is
   * min(content + header + 16, max), each then raised to its floor (200 by 100).
   */
  function OptimalOverlaySize(measured: Option<Measured>, maxWidth: Option<real>, maxHeight: Option<real>): (r: Option<Size>)
    ensures r.Some? <==> measured.Some?
    ensures r.Some? ==> (r.value.width.Some? <==> maxWidth.Some?) && (r.value.height.Some? <==> maxHeight.Some?)
    ensures r.Some? && r.value.width.Some? ==> r.value.width.value >= 200.0
    ensures r.Some? && r.value.height.Some? ==> r.value.height.value >= 100.0
    ensures r.Some? && maxWidth.Some? && maxWidth.value >= 200.0 ==> r.value.width.value <= maxWidth.value
    ensures r.Some? && maxHeight.Some? && maxHeight.value >= 100.0 ==> r.value.height.value <= maxHeight.value
    ensures r.Some? && maxWidth.Some? && 200.0 <= measured.value.contentWidth + 36.0 <= maxWidth.value ==>
              r.value.width.value == measured.value.contentWidth + 36.0
    ensures r.Some? && maxWidth.Some? && measured.value.contentWidth + 36.0 > maxWidth.value >= 200.0 ==>
              r.value.width.value == maxWidth.value
    ensures r.Some? && maxHeight.Some? &&
            100.0 <= measured.value.contentHeight + measured.value.headerHeight.GetOr(0.0) + 16.0 <= maxHeight.value ==>
              r.value.height.value == measured.value.contentHeight + measured.value.headerHeight.GetOr(0.0) + 16.0
  {
    match measured
    case None => None
    case Some(m) =>
      var padding := 16.0;
      var header := m.headerHeight.GetOr(0.0);
      Some(Size(FitDimension(m.contentWidth + padding + 20.0, maxWidth, MinOverlayWidth),
                FitDimension(m.contentHeight + header + padding, maxHeight, MinOverlayHeight)))
  }

  /**
   * Each dimension is the natural size (content plus padding, and the header for the
   * height) clamped between the floor and the configured maximum; a maximum below the
   * floor gives the floor.
   */
  lemma OptimalOverlaySizeIsClamped(m: Measured, maxWidth: real, maxHeight: real)
    ensures var r := OptimalOverlaySize(Some(m), Some(maxWidth), Some(maxHeight)).value;
      && r.width == Some(if maxWidth >= 200.0 then Clamp(m.contentWidth + 36.0, 200.0, maxWidth) else 200.0)
      && r.height == Some(if maxHeight >= 100.0
                          then Clamp(m.contentHeight + m.headerHeight.GetOr(0.0) + 16.0, 100.0, maxHeight)
                          else 100.0)
  {
  }

  /**
   * `adjustOverlayPosition`: the new top of an overlay of the given height. An overlay
   * that already ends above the viewport bottom minus the padding keeps its top; one
   * that does not is bottom-aligned, unless that would put it above the top padding.
   */
  function AdjustedTop(top: real, height: real, vp: Viewport): (r: real)
    ensures top + height <= vp.scrollY + vp.innerHeight - 10.0 ==> r == top
    ensures top + height > vp.scrollY + vp.innerHeight - 10.0 ==> r >= vp.scrollY + 10.0
    ensures top + height > vp.scrollY + vp.innerHeight - 10.0 && height <= vp.innerHeight - 20.0 ==>
              r + height == vp.scrollY + vp.innerHeight - 10.0
    ensures top + height > vp.scrollY + vp.innerHeight - 10.0 && height > vp.innerHeight - 20.0 ==>
              r == vp.scrollY + 10.0
  {
    var bottom := top + height;
    var viewportBottom := vp.scrollY + vp.innerHeight;
    if bottom > viewportBottom - EdgePadding then
      var aligned := viewportBottom - height - EdgePadding;
      if aligned < vp.scrollY + EdgePadding then vp.scrollY + EdgePadding else aligned
    else top
  }

  /**
   * A top that `AdjustedTop` chose is kept by a second adjustment, including the
   * top-margin fallback for an overlay taller than the viewport: the adjustment is idempotent.
   */
  lemma AdjustedTopIdempotent(top: real, height: real, vp: Viewport)
    ensures AdjustedTop(AdjustedTop(top, height, vp), height, vp) == AdjustedTop(top, height, vp)
  {
  }
}

=== FILE: markdown.dfy ===
/**
 * The result overlay's markdown renderer: a fixed sequence of global regular-expression
 * rewrites over the reply text. Each modelled pass reproduces its expression's match
 * semantics (leftmost match, greedy quantifiers with backtracking, `^`/`$` at line
 * terminators under the `m` flag, the `i` flag where it matters). The fenced-code, link
 * and list passes are taken as parameters of the renderer, applied in their source order.
 */
module Markdown {
  import opened Wrappers
  import Text

  // ---------------------------------------------------------------------------------
  // Global replacement
  // ---------------------------------------------------------------------------------

  /** `s.replace(/x/g, rep)` for a single character `x`. */
  function ReplaceChar(s: string, x: char, rep: string): (r: string)
    ensures x !in rep ==> x !in r
    ensures x !in s ==> r == s
    ensures forall y :: y in r ==> y in s || y in rep
  {
    if s == [] then []
    else (if s[0] == x then rep else [s[0]]) + ReplaceChar(s[1..], x, rep)
  }

  /** Replacing a character commutes with concatenation: each character is rewritten on its own. */
  lemma {:induction false} ReplaceCharAppend(a: string, b: string, x: char, rep: string)
    ensures ReplaceChar(a + b, x, rep) == ReplaceChar(a, x, rep) + ReplaceChar(b, x, rep)
  {
    if a == [] {
      assert a + b == b;
    } else {
      assert (a + b)[0] == a[0];
      assert (a + b)[1..] == a[1..] + b;
      ReplaceCharAppend(a[1..], b, x, rep);
    }
  }

  /** `s.replace(/pat/g, rep)` for a literal pattern: leftmost, non-overlapping matches. */
  function ReplaceAll(s: string, pat: string, rep: string): string
    requires pat != []
    decreases |s|
  {
    if s == [] then []
    else if Text.StartsWith(s, pat) then rep + ReplaceAll(s[|pat|..], pat, rep)
    else [s[0]] + ReplaceAll(s[1..], pat, rep)
  }

  /** A pattern whose last character occurs nowhere else in it. */
  predicate EndsUniquely(pat: string) {
    pat != [] && forall i :: 0 <= i < |pat| - 1 ==> pat[i] != pat[|pat| - 1]
  }

  /** Without the pattern's closing character nothing matches, so nothing changes. */
  lemma {:induction false} ReplaceAllNoMatch(s: string, pat: string, rep: string)
    requires pat != [] && pat[|pat| - 1] !in s
    ensures ReplaceAll(s, pat, rep) == s
  {
    if s != [] {
      ReplaceAllNoMatch(s[1..], pat, rep);
    }
  }

  /** Text that cannot take part in a match, followed by one occurrence: only that occurrence is replaced. */
  lemma {:induction false} ReplaceAllAtEnd(x: string, pat: string, rep: string)
    requires EndsUniquely(pat) && pat[|pat| - 1] !in x
    ensures ReplaceAll(x + pat, pat, rep) == x + rep
  {
    var s := x + pat;
    if x == [] {
      assert s == pat && s[|pat|..] == [];
    } else {
      assert s[1..] == x[1..] + pat;
      ReplaceAllAtEnd(x[1..], pat, rep);
    }
  }

  // ---------------------------------------------------------------------------------
  // HTML escaping, lines 12-14
  // ---------------------------------------------------------------------------------

  /** `&` first, then `<`, then `>`: the three global replacements in source order. */
  function Escape(s: string): (r: string)
    ensures '<' !in r && '>' !in r
  {
    ReplaceChar(ReplaceChar(ReplaceChar(s, '&', "&amp;"), '<', "&lt;"), '>', "&gt;")
  }

  /** The entity one character escapes to. */
  function EscapeChar(c: char): string {
    if c == '&' then "&amp;" else if c == '<' then "&lt;" else if c == '>' then "&gt;" else [c]
  }

  /** Because `&` goes first, no entity is escaped twice: escaping works character by character. */
  lemma EscapeCons(c: char, t: string)
    ensures Escape([c] + t) == EscapeChar(c) + Escape(t)
  {
    EscapeAppend([c], t);
    EscapeOne(c);
  }

  /** Escaping distributes over concatenation. */
  lemma EscapeAppend(a: string, b: string)
    ensures Escape(a + b) == Escape(a) + Escape(b)
  {
    ReplaceCharAppend(a, b, '&', "&amp;");
    var a1 := ReplaceChar(a, '&', "&amp;");
    var b1 := ReplaceChar(b, '&', "&amp;");
    ReplaceCharAppend(a1, b1, '<', "&lt;");
    var a2 := ReplaceChar(a1, '<', "&lt;");
    var b2 := ReplaceChar(b1, '<', "&lt;");
    ReplaceCharAppend(a2, b2, '>', "&gt;");
  }

  lemma EscapeOne(c: char)
    ensures Escape([c]) == EscapeChar(c)
  {
    var a1 := ReplaceChar([c], '&', "&amp;");
    assert a1 == (if c == '&' then "&amp;" else [c]) + ReplaceChar([], '&', "&amp;");
    var a2 := ReplaceChar(a1, '<', "&lt;");
    if c == '&' {
      assert a2 == a1;
    } else {
      assert a2 == (if c == '<' then "&lt;" else [c]) + ReplaceChar([], '<', "&lt;");
    }
    var a3 := ReplaceChar(a2, '>', "&gt;");
    if c == '&' || c == '<' {
      assert a3 == a2;
    } else {
      assert a3 == (if c == '>' then "&gt;" else [c]) + ReplaceChar([], '>', "&gt;");
    }
  }

  /** Text free of `&`, `<` and `>` is left as it is. */
  lemma EscapePlain(s: string)
    requires '&' !in s && '<' !in s && '>' !in s
    ensures Escape(s) == s
  {
  }

  /** Reads the three entities back; every other character stands for itself. */
  function Unescape(s: string): string
    decreases |s|
  {
    if s == [] then []
    else if Text.StartsWith(s, "&amp;") then "&" + Unescape(s[5..])
    else if Text.StartsWith(s, "&lt;") then "<" + Unescape(s[4..])
    else if Text.StartsWith(s, "&gt;") then ">" + Unescape(s[4..])
    else [s[0]] + Unescape(s[1..])
  }

  lemma UnescapeAmp(rest: string)
    ensures Unescape("&amp;" + rest) == "&" + Unescape(rest)
  {
    var s := "&amp;" + rest;
    assert s[..5] == "&amp;";
    assert s[5..] == rest;
  }

  lemma UnescapeLt(rest: string)
    ensures Unescape("&lt;" + rest) == "<" + Unescape(rest)
  {
    var s := "&lt;" + rest;
    assert s[1] == 'l';
    assert !Text.StartsWith(s, "&amp;");
    assert s[..4] == "&lt;";
    assert s[4..] == rest;
  }

  lemma UnescapeGt(rest: string)
    ensures Unescape("&gt;" + rest) == ">" + Unescape(rest)
  {
    var s := "&gt;" + rest;
    assert s[1] == 'g';
    assert !Text.StartsWith(s, "&amp;") && !Text.StartsWith(s, "&lt;");
    assert s[..4] == "&gt;";
    assert s[4..] == rest;
  }

  lemma UnescapeOther(c: char, rest: string)
    requires c != '&'
    ensures Unescape([c] + rest) == [c] + Unescape(rest)
  {
    var s := [c] + rest;
    assert s[0] == c;
    assert !Text.StartsWith(s, "&amp;") && !Text.StartsWith(s, "&lt;") && !Text.StartsWith(s, "&gt;");
    assert s[1..] == rest;
  }

  /** Each escaped character reads back as itself, whatever follows it. */
  lemma UnescapeEntity(c: char, rest: string)
    ensures Unescape(EscapeChar(c) + rest) == [c] + Unescape(rest)
  {
    if c == '&' {
      UnescapeAmp(rest);
    } else if c == '<' {
      UnescapeLt(rest);
    } else if c == '>' {
      UnescapeGt(rest);
    } else {
      UnescapeOther(c, rest);
    }
  }

  /** Escaping loses nothing: unescaping the escaped text gives back the input exactly. */
  lemma {:induction false} UnescapeEscape(s: string)
    ensures Unescape(Escape(s)) == s
  {
    if s != [] {
      assert s == [s[0]] + s[1..];
      EscapeCons(s[0], s[1..]);
      UnescapeEntity(s[0], Escape(s[1..]));
      UnescapeEscape(s[1..]);
    }
  }

  // ---------------------------------------------------------------------------------
  // Delimited spans: inline code, bold, italic, strikethrough (lines 23, 31-36, 39)
  // ---------------------------------------------------------------------------------

  /** `n` copies of `c`. */
  function Run(c: char, n: nat): (r: string)
    ensures |r| == n && forall i :: 0 <= i < n ==> r[i] == c
  {
    if n == 0 then [] else [c] + Run(c, n - 1)
  }

  /**
   * `s.replace(/cc…c([^c]+)cc…c/g, open + '$1' + close)` with `n` delimiter characters on
   * each side. At a position where `n` copies of `c` begin, the content runs to the next
   * `c`; it must be non-empty and be followed by `n` copies of `c`, otherwise the match
   * fails there (a shorter content would end before a character other than `c`) and the
   * search moves one character on.
   */
  function Spans(s: string, c: char, n: nat, open: string, close: string): string
    requires n >= 1
    decreases |s|
  {
    if s == [] then []
    else if Text.StartsWith(s, Run(c, n)) then
      var k := Text.IndexOf(s[n..], c);
      if 0 < k && n + k + n <= |s| && s[n + k..n + k + n] == Run(c, n) then
        open + s[n..n + k] + close + Spans(s[n + k + n..], c, n, open, close)
      else [s[0]] + Spans(s[1..], c, n, open, close)
    else [s[0]] + Spans(s[1..], c, n, open, close)
  }

  /** Text without the delimiter character passes through unchanged. */
  lemma {:induction false} SpansPlain(s: string, c: char, n: nat, open: string, close: string)
    requires n >= 1 && c !in s
    ensures Spans(s, c, n, open, close) == s
  {
    if s != [] {
      SpansPlain(s[1..], c, n, open, close);
    }
  }

  /** A delimited run with a non-empty, delimiter-free content is wrapped in the tags. */
  lemma SpanOf(x: string, c: char, n: nat, open: string, close: string)
    requires n >= 1 && x != [] && c !in x
    ensures Spans(Run(c, n) + x + Run(c, n), c, n, open, close) == open + x + close
  {
    var d := Run(c, n);
    var s := d + x + d;
    assert s[..n] == d;
    assert s[n..] == x + d;
    var k := Text.IndexOf(s[n..], c);
    assert (x + d)[|x|] == c;
    assert k == |x|;
    assert s[n + k..n + k + n] == d;
    assert s[n..n + k] == x;
    assert s[n + k + n..] == [];
  }

  /** Backquoted text with no backquote inside becomes code. */
  function InlineCode(s: string): string {
    Spans(s, '`', 1, "<code>", "</code>")
  }

  /** Bold with `**` then `__`, then italic with `*` then `_`, in source order. */
  function Emphasis(s: string): string {
    var b1 := Spans(s, '*', 2, "<strong>", "</strong>");
    var b2 := Spans(b1, '_', 2, "<strong>", "</strong>");
    var i1 := Spans(b2, '*', 1, "<em>", "</em>");
    Spans(i1, '_', 1, "<em>", "</em>")
  }

  /** Double-tilde text with no tilde inside becomes deleted text. */
  function Strike(s: string): string {
    Spans(s, '~', 2, "<del>", "</del>")
  }

  lemma InlineCodeOf(x: string)
    requires x != [] && '`' !in x
    ensures InlineCode("`" + x + "`") == "<code>" + x + "</code>"
  {
    SpanOf(x, '`', 1, "<code>", "</code>");
    assert Run('`', 1) == "`";
  }

  lemma StrikeOf(x: string)
    requires x != [] && '~' !in x
    ensures Strike("~~" + x + "~~") == "<del>" + x + "</del>"
  {
    SpanOf(x, '~', 2, "<del>", "</del>");
    assert Run('~', 2) == "~~";
  }

  // ---------------------------------------------------------------------------------
  // Line-anchored rewrites: headers (lines 26-28) and horizontal rules (line 62)
  // ---------------------------------------------------------------------------------

  /**
   * Applies `f` to every line of `s`, keeping the terminators. Under the `m` flag, `^`
   * matches at the start of the text and after each line terminator, and `.*$` stops at
   * the next one, so a line-anchored replacement acts on each line separately.
   */
  function MapLines(s: string, f: string -> string): string
    decreases |s|
  {
    var e := Text.LineEnd(s);
    if e == |s| then f(s) else f(s[..e]) + [s[e]] + MapLines(s[e + 1..], f)
  }

  /** The current line of `line + rest` is `line` when `rest` is empty or starts a new line. */
  lemma {:induction false} LineEndOfLine(line: string, rest: string)
    requires Text.SingleLine(line)
    requires rest != [] ==> Text.IsLineTerminator(rest[0])
    ensures Text.LineEnd(line + rest) == |line|
  {
    if line == [] {
      assert line + rest == rest;
    } else {
      var s := line + rest;
      assert s[0] == line[0];
      assert s[1..] == line[1..] + rest;
      LineEndOfLine(line[1..], rest);
    }
  }

  /** A text with no line terminator is a single line. */
  lemma MapLinesSingle(s: string, f: string -> string)
    requires Text.SingleLine(s)
    ensures MapLines(s, f) == f(s)
  {
    LineEndOfLine(s, []);
    assert s + [] == s;
  }

  /** Lines are rewritten independently: the first line, its terminator, then the rest. */
  lemma MapLinesCons(line: string, t: char, rest: string, f: string -> string)
    requires Text.SingleLine(line) && Text.IsLineTerminator(t)
    ensures MapLines(line + [t] + rest, f) == f(line) + [t] + MapLines(rest, f)
  {
    var s := line + [t] + rest;
    assert s == line + ([t] + rest);
    LineEndOfLine(line, [t] + rest);
    assert s[..|line|] == line;
    assert s[|line| + 1..] == rest;
  }

  /** `^<prefix>(.*$)` replaced by `<open>$1<close>` on one line. */
  function HeaderLine(line: string, prefix: string, open: string, close: string): (r: string)
    ensures Text.StartsWith(line, prefix) ==> r == open + line[|prefix|..] + close
    ensures !Text.StartsWith(line, prefix) ==> r == line
  {
    if Text.StartsWith(line, prefix) then open + line[|prefix|..] + close else line
  }

  /** The three header passes, the longest prefix first. */
  function Headers(s: string): string {
    var h3 := MapLines(s, line => HeaderLine(line, "### ", "<h3>", "</h3>"));
    var h2 := MapLines(h3, line => HeaderLine(line, "## ", "<h2>", "</h2>"));
    MapLines(h2, line => HeaderLine(line, "# ", "<h1>", "</h1>"))
  }

  lemma SingleLineConcat(a: string, b: string)
    requires Text.SingleLine(a) && Text.SingleLine(b)
    ensures Text.SingleLine(a + b)
  {
    forall i | 0 <= i < |a + b|
      ensures !Text.IsLineTerminator((a + b)[i])
    {
      if i < |a| { assert (a + b)[i] == a[i]; } else { assert (a + b)[i] == b[i - |a|]; }
    }
  }

  /** A line wrapped in tags no header prefix can match is left alone by the later passes. */
  lemma TaggedLineKept(x: string, open: string, close: string, prefix: string, o: string, c: string)
    requires Text.SingleLine(x) && Text.SingleLine(open) && Text.SingleLine(close)
    requires open != [] && open[0] == '<' && prefix != [] && prefix[0] == '#'
    ensures Text.SingleLine(open + x + close)
    ensures MapLines(open + x + close, line => HeaderLine(line, prefix, o, c)) == open + x + close
  {
    var s := open + x + close;
    SingleLineConcat(open, x);
    SingleLineConcat(open + x, close);
    MapLinesSingle(s, line => HeaderLine(line, prefix, o, c));
    assert s[0] == '<';
    assert !Text.StartsWith(s, prefix);
  }

  /** `### x` becomes a level-3 header and is never taken for level 2 or 1. */
  lemma HeaderLevel3(x: string)
    requires Text.SingleLine(x)
    ensures Headers("### " + x) == "<h3>" + x + "</h3>"
  {
    var s := "### " + x;
    SingleLineConcat("### ", x);
    MapLinesSingle(s, line => HeaderLine(line, "### ", "<h3>", "</h3>"));
    assert s[..4] == "### " && s[4..] == x;
    TaggedLineKept(x, "<h3>", "</h3>", "## ", "<h2>", "</h2>");
    TaggedLineKept(x, "<h3>", "</h3>", "# ", "<h1>", "</h1>");
  }

  /** `## x` becomes a level-2 header. */
  lemma HeaderLevel2(x: string)
    requires Text.SingleLine(x)
    ensures Headers("## " + x) == "<h2>" + x + "</h2>"
  {
    var s := "## " + x;
    SingleLineConcat("## ", x);
    MapLinesSingle(s, line => HeaderLine(line, "### ", "<h3>", "</h3>"));
    assert s[2] == ' ';
    assert !Text.StartsWith(s, "### ");
    MapLinesSingle(s, line => HeaderLine(line, "## ", "<h2>", "</h2>"));
    assert s[..3] == "## " && s[3..] == x;
    TaggedLineKept(x, "<h2>", "</h2>", "# ", "<h1>", "</h1>");
  }

  /** `# x` becomes a level-1 header. */
  lemma HeaderLevel1(x: string)
    requires Text.SingleLine(x)
    ensures Headers("# " + x) == "<h1>" + x + "</h1>"
  {
    var s := "# " + x;
    SingleLineConcat("# ", x);
    MapLinesSingle(s, line => HeaderLine(line, "### ", "<h3>", "</h3>"));
    MapLinesSingle(s, line => HeaderLine(line, "## ", "<h2>", "</h2>"));
    assert s[1] == ' ';
    assert !Text.StartsWith(s, "### ") && !Text.StartsWith(s, "## ");
    MapLinesSingle(s, line => HeaderLine(line, "# ", "<h1>", "</h1>"));
    assert s[..2] == "# " && s[2..] == x;
  }

  /** `^(?:---|___|\*\*\*)$` on one line: only a line that is exactly the rule becomes `<hr>`. */
  function RuleLine(line: string): (r: string)
    ensures r == "<hr>" <==> line == "---" || line == "___" || line == "***" || line == "<hr>"
    ensures r != "<hr>" ==> r == line
  {
    if line == "---" || line == "___" || line == "***" then "<hr>" else line
  }

  function HorizontalRules(s: string): string {
    MapLines(s, RuleLine)
  }

  // ---------------------------------------------------------------------------------
  // Blockquotes, line 59: /^&gt;\s+(.+)$/gim
  // ---------------------------------------------------------------------------------

  /** `&gt;` under the `i` flag: the letters may be upper case. */
  predicate GtAt(s: string) {
    |s| >= 4 && s[0] == '&' && (s[1] == 'g' || s[1] == 'G') && (s[2] == 't' || s[2] == 'T') && s[3] == ';'
  }

  /** The text a match captured: the range `[start, end)` of the searched string. */
  datatype Capture = Capture(start: nat, end: nat)

  /** Length of the white-space run at the front of `s` (what a greedy `\s+` first takes). */
  function WhitespaceRun(s: string): (r: nat)
    ensures r <= |s|
    ensures forall i :: 0 <= i < r ==> Text.IsWhitespace(s[i])
    ensures r < |s| ==> !Text.IsWhitespace(s[r])
  {
    if s == [] || !Text.IsWhitespace(s[0]) then 0 else 1 + WhitespaceRun(s[1..])
  }

  /**
   * Backtracking of `\s+(.+)$` after `\s+` took `m` characters from position `q`: the
   * captured text must start with a character that is not a line terminator and runs to
   * the end of its line. The result is the captured range.
   */
  function CaptureFrom(s: string, q: nat, m: nat): (r: Option<Capture>)
    requires 1 <= m && q + m <= |s|
    requires forall i :: q <= i < q + m ==> Text.IsWhitespace(s[i])
    ensures r.Some? ==> q < r.value.start <= q + m && r.value.start < r.value.end <= |s|
    ensures r.Some? ==> Text.Blank(s[q..r.value.start])
    ensures (exists p :: q < p <= q + m && p < |s| && !Text.IsLineTerminator(s[p])) ==> r.Some?
    ensures r.Some? ==> r.value.end == |s| || Text.IsLineTerminator(s[r.value.end])
    ensures r.Some? ==> Text.SingleLine(s[r.value.start..r.value.end])
    decreases m
  {
    var p := q + m;
    if p < |s| && !Text.IsLineTerminator(s[p]) then
      var e := Text.LineEnd(s[p..]);
      assert s[p..][..e] == s[p..p + e];
      Some(Capture(p, p + e))
    else if m == 1 then None
    else CaptureFrom(s, q, m - 1)
  }

  /** The match of `&gt;\s+(.+)$` at the start of `s`, as the captured range. */
  function QuoteMatch(s: string): (r: Option<Capture>)
    ensures r.Some? ==> GtAt(s) && 4 < r.value.start < r.value.end <= |s|
    ensures r.Some? ==> r.value.end == |s| || Text.IsLineTerminator(s[r.value.end])
    ensures r.Some? ==> Text.SingleLine(s[r.value.start..r.value.end])
    ensures r.Some? ==> Text.Blank(s[4..r.value.start])
    ensures GtAt(s) && (exists p :: 4 < p < |s| && Text.Blank(s[4..p]) && !Text.IsLineTerminator(s[p])) ==> r.Some?
  {
    if !GtAt(s) then None
    else
      var w := WhitespaceRun(s[4..]);
      assert forall i :: 4 <= i < 4 + w ==> s[i] == s[4..][i - 4];
      if w == 0 then
        assert forall p :: 4 < p < |s| ==> !Text.Blank(s[4..p]) by {
          forall p | 4 < p < |s| ensures !Text.Blank(s[4..p]) {
            assert s[4..p][0] == s[4..][0];
          }
        }
        None
      else
        forall p | 4 < p < |s| ensures Text.Blank(s[4..p]) ==> p <= 4 + w {
          if p > 4 + w {
            assert s[4..p][w] == s[4..][w];
          }
        }
        CaptureFrom(s, 4, w)
  }

  /**
   * The blockquote pass over text that begins at a line start. A match may span several
   * lines (`\s` includes line terminators); after it the search resumes at the terminator
   * that ended the match, where `^` cannot match, so the next candidate is the line after.
   */
  function Blockquotes(s: string): string
    decreases |s|
  {
    match QuoteMatch(s)
    case Some(Capture(start, end)) =>
      var rest := s[end..];
      "<blockquote>" + s[start..end] + "</blockquote>"
        + (if rest == [] then [] else [rest[0]] + Blockquotes(rest[1..]))
    case None =>
      var e := Text.LineEnd(s);
      if e == |s| then s else s[..e + 1] + Blockquotes(s[e + 1..])
  }

  /**
   * On `&gt;`, one white-space character and `x`, the capture is all of `x`. The white
   * space may be a line terminator: `\s` matches it, so the quote joins the next line.
   */
  lemma QuoteMatchAfter(w: char, x: string)
    requires Text.IsWhitespace(w)
    requires Text.SingleLine(x) && x != [] && !Text.IsWhitespace(x[0])
    ensures QuoteMatch("&gt;" + [w] + x) == Some(Capture(5, 5 + |x|))
  {
    var s := "&gt;" + [w] + x;
    assert s[..4] == "&gt;";
    assert GtAt(s);
    var t := s[4..];
    assert t == [w] + x;
    assert t[1..] == x;
    assert WhitespaceRun(t) == 1 + WhitespaceRun(x) == 1;
    assert s[5] == x[0];
    assert s[5..] == x;
    LineEndOfLine(x, []);
    assert x + [] == x;
    assert CaptureFrom(s, 4, 1) == Some(Capture(5, 5 + |x|));
  }

  /** An escaped `> x` line is recognised: `&gt; x` becomes a blockquote of `x`. */
  lemma QuoteOfLine(x: string)
    requires Text.SingleLine(x) && x != [] && !Text.IsWhitespace(x[0])
    ensures Blockquotes("&gt; " + x) == "<blockquote>" + x + "</blockquote>"
  {
    var s := "&gt; " + x;
    assert s == "&gt;" + [' '] + x;
    QuoteMatchAfter(' ', x);
    assert s[5..5 + |x|] == x;
    assert s[5 + |x|..] == [];
  }

  /** `\s+` crosses line ends: a bare `&gt;` line quotes the line after it. */
  lemma QuoteJoinsNextLine(x: string)
    requires Text.SingleLine(x) && x != [] && !Text.IsWhitespace(x[0])
    ensures Blockquotes("&gt;\n" + x) == "<blockquote>" + x + "</blockquote>"
  {
    var s := "&gt;\n" + x;
    assert s == "&gt;" + ['\n'] + x;
    QuoteMatchAfter('\n', x);
    assert s[5..5 + |x|] == x;
    assert s[5 + |x|..] == [];
  }

  /** A raw `> x` line of the reply comes out of escaping and quoting as a blockquote. */
  lemma RawQuoteLine(x: string)
    requires Text.SingleLine(x) && x != [] && !Text.IsWhitespace(x[0])
    requires '&' !in x && '<' !in x && '>' !in x
    ensures Blockquotes(Escape("> " + x)) == "<blockquote>" + x + "</blockquote>"
  {
    EscapeCons('>', " " + x);
    assert ">" + (" " + x) == "> " + x;
    EscapeCons(' ', x);
    EscapePlain(x);
    assert EscapeChar('>') + (EscapeChar(' ') + x) == "&gt; " + x;
    QuoteOfLine(x);
  }

  /** Text with no `&` has no blockquote to find. */
  lemma {:induction false} BlockquotesPlain(s: string)
    requires '&' !in s
    ensures Blockquotes(s) == s
    decreases |s|
  {
    var e := Text.LineEnd(s);
    if e < |s| {
      assert s == s[..e + 1] + s[e + 1..];
      BlockquotesPlain(s[e + 1..]);
    }
  }

  // ---------------------------------------------------------------------------------
  // Line breaks, lines 65-66
  // ---------------------------------------------------------------------------------

  /** Two spaces before a newline, then every remaining newline, become `<br>`. */
  function LineBreaks(s: string): (r: string)
    ensures '\n' !in r
  {
    ReplaceChar(ReplaceAll(s, "  \n", "<br>"), '\n', "<br>")
  }

  /** A line ending in two spaces and a newline loses both to a single `<br>`. */
  lemma HardBreak(x: string)
    requires '\n' !in x
    ensures LineBreaks(x + "  \n") == x + "<br>"
  {
    ReplaceAllAtEnd(x, "  \n", "<br>");
  }

  /** A plain newline becomes `<br>`. */
  lemma SoftBreak(x: string)
    requires '\n' !in x && !Text.EndsWith(x, "  ")
    ensures LineBreaks(x + "\n") == x + "<br>"
  {
    var s := x + "\n";
    if |x| >= 2 {
      assert x[|x| - 2..] == [x[|x| - 2], x[|x| - 1]];
    }
    ReplaceAllSoft(x);
    assert ReplaceAll(s, "  \n", "<br>") == s;
    ReplaceCharAppend(x, "\n", '\n', "<br>");
  }

  /** The last two characters of `x` are not both spaces. */
  predicate NoTrailingPair(x: string) {
    |x| < 2 || x[|x| - 2] != ' ' || x[|x| - 1] != ' '
  }

  /** Without two spaces before it, a final newline is not part of a `"  \n"` match. */
  lemma {:induction false} ReplaceAllSoft(x: string)
    requires '\n' !in x && NoTrailingPair(x)
    ensures ReplaceAll(x + "\n", "  \n", "<br>") == x + "\n"
    decreases |x|
  {
    var s := x + "\n";
    if x != [] {
      var t := x[1..];
      assert s == [x[0]] + (t + "\n");
      assert !Text.StartsWith(s, "  \n") by {
        if |s| >= 3 {
          assert s[..3][0] == s[0] && s[..3][1] == s[1] && s[..3][2] == s[2];
          if |x| >= 3 {
            assert s[2] == x[2] && x[2] in x;
          } else {
            assert s[0] == x[0] && s[1] == x[1];
          }
        }
      }
      assert s[1..] == t + "\n";
      if |x| >= 3 {
        assert t[|t| - 2] == x[|x| - 2] && t[|t| - 1] == x[|x| - 1];
      }
      ReplaceAllSoft(t);
    }
  }

  // ---------------------------------------------------------------------------------
  // The renderer
  // ---------------------------------------------------------------------------------

  /**
   * `parseMarkdown`: empty text renders as empty; otherwise every pass in source order.
   * `codeBlocks`, `links` and `lists` stand for the fenced-code, link and list passes.
   */
  function ParseMarkdown(text: string, codeBlocks: string -> string, links: string -> string,
                         lists: string -> string): (r: string)
    ensures text == [] ==> r == []
    ensures '\n' !in r
  {
    if text == [] then []
    else
      var escaped := Escape(text);
      var code := InlineCode(codeBlocks(escaped));
      var struck := Strike(Emphasis(Headers(code)));
      var structured := lists(links(struck));
      LineBreaks(HorizontalRules(Blockquotes(structured)))
  }

  /** Characters some modelled pass reacts to. */
  predicate Plain(x: string) {
    forall i :: 0 <= i < |x| ==> x[i] !in "&<>`*_~#\n"
  }

  lemma PlainChars(x: string)
    requires Plain(x)
    ensures '&' !in x && '<' !in x && '>' !in x && '`' !in x
    ensures '*' !in x && '_' !in x && '~' !in x && '\n' !in x
  {
    forall i | 0 <= i < |x|
      ensures x[i] != '&' && x[i] != '<' && x[i] != '>' && x[i] != '`'
      ensures x[i] != '*' && x[i] != '_' && x[i] != '~' && x[i] != '\n'
    {
      assert x[i] !in "&<>`*_~#\n";
    }
  }

  /** Text with no `*` or `_` has no emphasis. */
  lemma EmphasisPlain(s: string)
    requires '*' !in s && '_' !in s
    ensures Emphasis(s) == s
  {
    SpansPlain(s, '*', 2, "<strong>", "</strong>");
    SpansPlain(s, '_', 2, "<strong>", "</strong>");
    SpansPlain(s, '*', 1, "<em>", "</em>");
    SpansPlain(s, '_', 1, "<em>", "</em>");
  }

  /** Text with no newline has no line break. */
  lemma LineBreaksPlain(s: string)
    requires '\n' !in s
    ensures LineBreaks(s) == s
  {
    ReplaceAllNoMatch(s, "  \n", "<br>");
  }

  /** The ordinary text `x` wrapped in level-3 header tags, and the facts the later passes need. */
  lemma HeaderTagsPlain(x: string)
    requires Plain(x) && Text.SingleLine(x)
    ensures var h := "<h3>" + x + "</h3>";
      && '*' !in h && '_' !in h && '~' !in h && '&' !in h && '\n' !in h
      && HorizontalRules(h) == h
  {
    var h := "<h3>" + x + "</h3>";
    PlainChars(x);
    SingleLineConcat("<h3>", x);
    SingleLineConcat("<h3>" + x, "</h3>");
    MapLinesSingle(h, RuleLine);
    assert h[1] == 'h';
  }

  /**
   * End to end: a `### ` line of ordinary text renders as a level-3 header, when the
   * fenced-code, link and list passes leave it alone.
   */
  lemma RenderHeaderLine(x: string, codeBlocks: string -> string, links: string -> string,
                         lists: string -> string)
    requires Plain(x) && Text.SingleLine(x)
    requires codeBlocks("### " + x) == "### " + x
    requires links("<h3>" + x + "</h3>") == "<h3>" + x + "</h3>"
    requires lists("<h3>" + x + "</h3>") == "<h3>" + x + "</h3>"
    ensures ParseMarkdown("### " + x, codeBlocks, links, lists) == "<h3>" + x + "</h3>"
  {
    var src := "### " + x;
    var h := "<h3>" + x + "</h3>";
    PlainChars(x);
    EscapePlain(src);
    SpansPlain(src, '`', 1, "<code>", "</code>");
    assert InlineCode(codeBlocks(Escape(src))) == src;
    HeaderLevel3(x);
    HeaderTagsPlain(x);
    EmphasisPlain(h);
    SpansPlain(h, '~', 2, "<del>", "</del>");
    assert Strike(Emphasis(Headers(src))) == h;
    BlockquotesPlain(h);
    LineBreaksPlain(h);
  }
}

=== FILE: numbers.dfy ===
/**
 * Integer text conversions as the extension's scripts perform them:
 * `parseInt(s)` with no radix argument, and the decimal text a JavaScript
 * template literal produces for an integer or for `NaN`.
 */
module Numbers {
  import opened Wrappers
  import Text

  /** The decimal digit for `d`. */
  function DigitChar(d: nat): (c: char)
    requires d < 10
    ensures '0' <= c <= '9'
    ensures c as int - '0' as int == d
  {
    (d + '0' as int) as char
  }

  predicate AllDecimal(s: string) {
    forall i :: 0 <= i < |s| ==> '0' <= s[i] <= '9'
  }

  /** Decimal text of a natural number: digits only, no leading zero except for 0 itself. */
  function NatToString(n: nat): (r: string)
    ensures |r| >= 1 && AllDecimal(r)
    ensures r[0] == '0' ==> r == "0"
    decreases n
  {
    if n < 10 then [DigitChar(n)]
    else NatToString(n / 10) + [DigitChar(n % 10)]
  }

  /** `${i}` for an integer `i` of magnitude below 1e21, where JavaScript writes plain decimal digits. */
  function IntToString(i: int): (r: string)
    ensures i < 0 ==> |r| >= 2 && r[0] == '-' && r[1..] == NatToString(-i)
    ensures i >= 0 ==> r == NatToString(i)
  {
    if i < 0 then "-" + NatToString(-i) else NatToString(i)
  }

  /** `${v}` for the result of a `parseInt`: an integer, or `NaN`. */
  function NumberText(v: Option<int>): string {
    match v
    case Some(i) => IntToString(i)
    case None => "NaN"
  }

  /** Value of `c` as a digit in base `radix` (letters count from 10, either case). */
  function DigitValue(c: char, radix: nat): (r: Option<nat>)
    ensures r.Some? ==> r.value < radix
  {
    var v: int :=
      if '0' <= c <= '9' then c as int - '0' as int
      else if 'a' <= c <= 'z' then c as int - 'a' as int + 10
      else if 'A' <= c <= 'Z' then c as int - 'A' as int + 10
      else radix;
    if 0 <= v < radix then Some(v) else None
  }

  predicate IsDigitIn(c: char, radix: nat) {
    DigitValue(c, radix).Some?
  }

  /** Length of the longest prefix of `s` made of base-`radix` digits. */
  function DigitRun(s: string, radix: nat): (k: nat)
    ensures k <= |s|
    ensures forall i :: 0 <= i < k ==> IsDigitIn(s[i], radix)
    ensures k < |s| ==> !IsDigitIn(s[k], radix)
  {
    if s != [] && IsDigitIn(s[0], radix) then 1 + DigitRun(s[1..], radix) else 0
  }

  /** Value of a digit string, most significant digit first (only ever applied to digit runs). */
  function RunValue(d: string, radix: nat): nat
  {
    if d == [] then 0
    else RunValue(d[..|d| - 1], radix) * radix + DigitValue(d[|d| - 1], radix).GetOr(0)
  }

  /**
   * The unsigned part of `parseInt`: a `0x`/`0X` prefix selects base 16, otherwise base 10,
   * and the longest run of digits is read; `None` when that run is empty.
   */
  function ParseMagnitude(u: string): Option<nat>
  {
    var hex := Text.StartsWith(u, "0x") || Text.StartsWith(u, "0X");
    var radix := if hex then 16 else 10;
    var body := if hex then u[2..] else u;
    var k := DigitRun(body, radix);
    if k == 0 then None else Some(RunValue(body[..k], radix))
  }

  /** The sign step of `parseInt`: skip white space, then note and drop one `-` or `+`. */
  function ParseSigned(s: string): (bool, string)
  {
    var t := Text.TrimStart(s);
    var negative := t != [] && t[0] == '-';
    (negative, if t != [] && (t[0] == '-' || t[0] == '+') then t[1..] else t)
  }

  /**
   * `parseInt(s)` with no radix: skip leading white space, take an optional sign, then
   * read the magnitude; `None` stands for `NaN`.
   */
  function ParseInt(s: string): Option<int>
  {
    var (negative, u) := ParseSigned(s);
    match ParseMagnitude(u)
    case None => None
    case Some(m) => Some(if negative then -(m as int) else m as int)
  }

  /** A string made only of base-`radix` digits is read whole. */
  lemma {:induction false} DigitRunOfDigits(s: string, radix: nat)
    requires forall i :: 0 <= i < |s| ==> IsDigitIn(s[i], radix)
    ensures DigitRun(s, radix) == |s|
    decreases |s|
  {
    if s != [] {
      DigitRunOfDigits(s[1..], radix);
    }
  }

  lemma DecimalDigitsAreDigits(s: string)
    requires AllDecimal(s)
    ensures forall i :: 0 <= i < |s| ==> IsDigitIn(s[i], 10)
  {
  }

  lemma DigitValueOfDigitChar(d: nat)
    requires d < 10
    ensures DigitValue(DigitChar(d), 10) == Some(d)
  {
  }

  lemma DivMod10(n: nat)
    ensures n == (n / 10) * 10 + n % 10
  {
  }

  /** Reading back the decimal text of `n` gives `n`. */
  lemma {:induction false} RunValueOfNatToString(n: nat)
    ensures RunValue(NatToString(n), 10) == n
    decreases n
  {
    var r := NatToString(n);
    if n < 10 {
      DigitValueOfDigitChar(n);
      assert r[..0] == [];
    } else {
      var p := NatToString(n / 10);
      RunValueOfNatToString(n / 10);
      assert r == p + [DigitChar(n % 10)];
      assert r[..|r| - 1] == p;
      DigitValueOfDigitChar(n % 10);
      assert RunValue(r, 10) == RunValue(p, 10) * 10 + n % 10;
      DivMod10(n);
    }
  }

  /** A non-empty run of decimal digits is read whole, in base 10. */
  lemma ParseMagnitudeOfDecimal(d: string)
    requires |d| >= 1 && AllDecimal(d)
    ensures ParseMagnitude(d) == Some(RunValue(d, 10))
  {
    DecimalDigitsAreDigits(d);
    DigitRunOfDigits(d, 10);
    assert !Text.StartsWith(d, "0x") && !Text.StartsWith(d, "0X") by {
      if |d| >= 2 {
        assert '0' <= d[1] <= '9';
        assert d[..2][1] == d[1];
      }
    }
    assert d[..|d|] == d;
  }

  /** The magnitude read from the decimal text of `n` is `n`. */
  lemma ParseMagnitudeOfNatToString(n: nat)
    ensures ParseMagnitude(NatToString(n)) == Some(n)
  {
    RunValueOfNatToString(n);
    ParseMagnitudeOfDecimal(NatToString(n));
  }

  /** Text starting with a sign or a digit has no leading white space to skip. */
  lemma TrimStartOfSignOrDigit(s: string)
    requires s != [] && (s[0] == '-' || '0' <= s[0] <= '9')
    ensures Text.TrimStart(s) == s
  {
    assert !Text.IsWhitespace(s[0]);
  }

  /** The sign step on a digit string, with or without a leading `-`. */
  lemma ParseSignedOfSignedDecimal(d: string, negative: bool)
    requires |d| >= 1 && AllDecimal(d)
    ensures ParseSigned((if negative then "-" else "") + d) == (negative, d)
  {
    var s := (if negative then "-" else "") + d;
    TrimStartOfSignOrDigit(s);
    if negative {
      assert s[1..] == d;
    } else {
      assert s == d;
    }
  }

  /** `parseInt` is the signed magnitude once the sign step and the magnitude are known. */
  lemma ParseIntFromParts(s: string, negative: bool, u: string, m: nat)
    requires ParseSigned(s) == (negative, u)
    requires ParseMagnitude(u) == Some(m)
    ensures ParseInt(s) == Some(if negative then -(m as int) else m as int)
  {
  }

  /**
   * Round trip: `parseInt(`${i}`)` gives back `i` for every integer (with unbounded
   * integers; JavaScript doubles keep this below 2^53), which is what makes ids such as
   * `prompt-<i>` decodable.
   */
  lemma ParseIntOfIntToString(i: int)
    ensures ParseInt(IntToString(i)) == Some(i)
  {
    var n: nat := if i < 0 then -i else i;
    var d := NatToString(n);
    RunValueOfNatToString(n);
    ParseMagnitudeOfDecimal(d);
    ParseSignedOfSignedDecimal(d, i < 0);
    assert IntToString(i) == (if i < 0 then "-" else "") + d;
    ParseIntFromParts(IntToString(i), i < 0, d, n);
  }
}

=== FILE: options.dfy ===
/**
 * The options page: the prompt list editor (add, update, delete, edit, cancel), the
 * settings form (validation, saving, loading with defaults) and the model-list fetch.
 * Storage reads and writes become inputs: the list the editor works on is what storage
 * holds, and a write either succeeds or reports an error message.
 */
module Options {
  import opened Wrappers
  import Text
  import Numbers
  import opened Store
  import Geometry
  import Relay
  import Sorting

  datatype Color = Red | Green | Blue

  /** A status line: its message and colour. */
  datatype Status = Status(message: string, color: Color)

  /**
   * The prompt editor: the stored list, the index being edited (`editingIndex`), the
   * name and text fields, and the prompts panel's status line.
   */
  datatype Editor = Editor(
    stored: seq<Prompt>,
    editingIndex: Option<nat>,
    nameField: string,
    textField: string,
    status: Option<Status>)

  const MissingPromptFields: string := "Please provide both prompt name and text"

  /** A prompt as `addPrompt` stores it: name and text non-empty and trimmed. */
  predicate Trimmed(p: Prompt) {
    p.name != [] && p.text != [] && Text.IsTrimmed(p.name) && Text.IsTrimmed(p.text)
  }

  predicate AllTrimmed(prompts: seq<Prompt>) {
    forall i :: 0 <= i < |prompts| ==> Trimmed(prompts[i])
  }

  /** The edit index, when set, names an entry of the stored list. */
  predicate EditIndexInRange(ed: Editor) {
    ed.editingIndex.Some? ==> ed.editingIndex.value < |ed.stored|
  }

  /**
   * The list `addPrompt` writes for prompt `p`: without an edit index `p` is appended;
   * with one it replaces that entry, and an index equal to the length appends, as a
   * JavaScript array assignment does.
   */
  function WritePrompt(stored: seq<Prompt>, editingIndex: Option<nat>, p: Prompt): (r: seq<Prompt>)
    requires editingIndex.Some? ==> editingIndex.value <= |stored|
    ensures editingIndex.None? ==> r == stored + [p]
    ensures editingIndex.Some? && editingIndex.value < |stored| ==>
              && |r| == |stored|
              && r[editingIndex.value] == p
              && (forall j :: 0 <= j < |stored| && j != editingIndex.value ==> r[j] == stored[j])
    ensures editingIndex.Some? && editingIndex.value == |stored| ==> r == stored + [p]
  {
    match editingIndex
    case None => stored + [p]
    case Some(i) => if i < |stored| then stored[i := p] else stored + [p]
  }

  /**
   * `addPrompt`: a trimmed-empty name or text is rejected with nothing else changed;
   * otherwise the trimmed prompt is written, and on a successful write the form is
   * cleared and editing ends. A failed write changes nothing but the status.
   */
  function AddPrompt(ed: Editor, storeError: Option<string>): (r: Editor)
    requires ed.editingIndex.Some? ==> ed.editingIndex.value <= |ed.stored|
    ensures Text.Blank(ed.nameField) || Text.Blank(ed.textField) ==>
              r == ed.(status := Some(Status(MissingPromptFields, Red)))
    ensures storeError.Some? ==> r.stored == ed.stored && r.editingIndex == ed.editingIndex
    ensures r.stored != ed.stored ==> r.editingIndex.None? && r.nameField == "" && r.textField == ""
    ensures !Text.Blank(ed.nameField) && !Text.Blank(ed.textField) && storeError.None? ==>
              && r.stored == WritePrompt(ed.stored, ed.editingIndex, Prompt(Text.Trim(ed.nameField), Text.Trim(ed.textField)))
              && r.editingIndex.None? && r.nameField == "" && r.textField == ""
              && r.status == Some(Status(if ed.editingIndex.Some? then "Prompt updated successfully!"
                                         else "Prompt added successfully!", Green))
  {
    Text.TrimEmptyIffBlank(ed.nameField);
    Text.TrimEmptyIffBlank(ed.textField);
    var name := Text.Trim(ed.nameField);
    var text := Text.Trim(ed.textField);
    if name == [] || text == [] then ed.(status := Some(Status(MissingPromptFields, Red)))
    else
      var written := WritePrompt(ed.stored, ed.editingIndex, Prompt(name, text));
      match storeError
      case Some(msg) => ed.(status := Some(Status("Error saving prompt: " + msg, Red)))
      case None =>
        var message := if ed.editingIndex.Some? then "Prompt updated successfully!" else "Prompt added successfully!";
        Editor(written, None, "", "", Some(Status(message, Green)))
  }

  /** `prompts.splice(index, 1)` for a non-negative index: removes entry `i` when there is one. */
  function Splice(s: seq<Prompt>, i: nat): (r: seq<Prompt>)
    ensures i >= |s| ==> r == s
    ensures i < |s| ==> |r| == |s| - 1 && multiset(r) + multiset{s[i]} == multiset(s)
    ensures i < |s| ==> forall j :: 0 <= j < |r| ==> r[j] == (if j < i then s[j] else s[j + 1])
  {
    if i < |s| then
      assert s == s[..i] + [s[i]] + s[i + 1..];
      s[..i] + s[i + 1..]
    else s
  }

  /**
   * `deletePrompt` as the page implements it: the entry is spliced out and written back,
   * and the edit index and form are left as they were.
   */
  function DeletePromptAsWritten(ed: Editor, i: nat, storeError: Option<string>): (r: Editor)
    ensures storeError.Some? ==> r.stored == ed.stored
    ensures storeError.None? ==> r.stored == Splice(ed.stored, i)
    ensures r.editingIndex == ed.editingIndex && r.nameField == ed.nameField && r.textField == ed.textField
  {
    match storeError
    case Some(msg) => ed.(status := Some(Status("Error deleting prompt: " + msg, Red)))
    case None => ed.(stored := Splice(ed.stored, i), status := Some(Status("Prompt deleted successfully!", Green)))
  }

  /**
   * `deletePrompt` with the edit index kept pointing at the prompt being edited: an
   * index after the deleted entry moves down by one, and deleting the edited prompt
   * itself ends the edit and clears the form.
   */
  function DeletePrompt(ed: Editor, i: nat, storeError: Option<string>): (r: Editor)
    ensures storeError.Some? ==> r.stored == ed.stored && r.editingIndex == ed.editingIndex
    ensures storeError.None? ==> r.stored == Splice(ed.stored, i)
    ensures EditIndexInRange(ed) ==> EditIndexInRange(r)
    ensures ed.editingIndex.Some? && r.editingIndex.Some? && ed.editingIndex.value < |ed.stored| ==>
              r.stored[r.editingIndex.value] == ed.stored[ed.editingIndex.value]
    ensures ed.editingIndex.Some? && r.editingIndex.None? ==> storeError.None? && ed.editingIndex.value == i
  {
    match storeError
    case Some(msg) => ed.(status := Some(Status("Error deleting prompt: " + msg, Red)))
    case None =>
      var stored := Splice(ed.stored, i);
      var deleted := Status("Prompt deleted successfully!", Green);
      match ed.editingIndex
      case None => ed.(stored := stored, status := Some(deleted))
      case Some(j) =>
        if i >= |ed.stored| || j < i then ed.(stored := stored, status := Some(deleted))
        else if j == i then Editor(stored, None, "", "", Some(deleted))
        else ed.(stored := stored, editingIndex := Some(j - 1), status := Some(deleted))
  }

  /** `editPrompt`: an existing entry fills the form and becomes the edited one; any other index does nothing. */
  function EditPrompt(ed: Editor, i: nat): (r: Editor)
    ensures i < |ed.stored| ==>
              && r.editingIndex == Some(i)
              && Prompt(r.nameField, r.textField) == ed.stored[i]
              && r.stored == ed.stored
              && r.status == Some(Status("Editing prompt...", Blue))
    ensures i >= |ed.stored| ==> r == ed
    ensures EditIndexInRange(r) <== EditIndexInRange(ed)
  {
    if i < |ed.stored| then
      ed.(nameField := ed.stored[i].name, textField := ed.stored[i].text, editingIndex := Some(i),
          status := Some(Status("Editing prompt...", Blue)))
    else ed
  }

  /** `cancelEdit`: the form is cleared and editing ends; the list is untouched. */
  function CancelEdit(ed: Editor): (r: Editor)
    ensures r.editingIndex.None? && r.nameField == "" && r.textField == ""
    ensures r.stored == ed.stored
    ensures r.status == Some(Status("Edit cancelled", Blue))
  {
    ed.(nameField := "", textField := "", editingIndex := None, status := Some(Status("Edit cancelled", Blue)))
  }

  /** Writing a trimmed prompt into a trimmed list, at the end or in place, keeps it trimmed. */
  lemma WritePromptKeepsTrimmed(stored: seq<Prompt>, editingIndex: Option<nat>, p: Prompt)
    requires editingIndex.Some? ==> editingIndex.value <= |stored|
    requires AllTrimmed(stored) && Trimmed(p)
    ensures AllTrimmed(WritePrompt(stored, editingIndex, p))
  {
    var r := WritePrompt(stored, editingIndex, p);
    forall j | 0 <= j < |r| ensures Trimmed(r[j]) {
      if j < |stored| && r[j] != p { assert r[j] == stored[j]; }
    }
  }

  /** Every stored prompt `addPrompt` writes is trimmed and non-empty, so the property is kept. */
  lemma AddPromptKeepsTrimmed(ed: Editor, storeError: Option<string>)
    requires ed.editingIndex.Some? ==> ed.editingIndex.value <= |ed.stored|
    requires AllTrimmed(ed.stored)
    ensures AllTrimmed(AddPrompt(ed, storeError).stored)
  {
    if !Text.Blank(ed.nameField) && !Text.Blank(ed.textField) && storeError.None? {
      Text.TrimEmptyIffBlank(ed.nameField);
      Text.TrimEmptyIffBlank(ed.textField);
      var p := Prompt(Text.Trim(ed.nameField), Text.Trim(ed.textField));
      WritePromptKeepsTrimmed(ed.stored, ed.editingIndex, p);
    }
  }

  /** Deleting keeps the remaining prompts as they were, so it keeps them trimmed. */
  lemma DeletePromptKeepsTrimmed(ed: Editor, i: nat, storeError: Option<string>)
    requires AllTrimmed(ed.stored)
    ensures AllTrimmed(DeletePrompt(ed, i, storeError).stored)
  {
    var r := DeletePrompt(ed, i, storeError).stored;
    if storeError.None? && i < |ed.stored| {
      forall j | 0 <= j < |r| ensures Trimmed(r[j]) {
        if j < i { assert r[j] == ed.stored[j]; } else { assert r[j] == ed.stored[j + 1]; }
      }
    }
  }

  /** Adding, editing, cancelling and the corrected delete all keep the edit index in range. */
  lemma EditorKeepsIndexInRange(ed: Editor, i: nat, storeError: Option<string>)
    requires EditIndexInRange(ed)
    ensures EditIndexInRange(AddPrompt(ed, storeError))
    ensures EditIndexInRange(DeletePrompt(ed, i, storeError))
    ensures EditIndexInRange(EditPrompt(ed, i))
    ensures EditIndexInRange(CancelEdit(ed))
  {
  }

  /** The form holds a name and text that `addPrompt` stores unchanged. */
  lemma TrimmedFormStoredAsIs(ed: Editor)
    requires ed.nameField != [] && Text.IsTrimmed(ed.nameField)
    requires ed.textField != [] && Text.IsTrimmed(ed.textField)
    ensures !Text.Blank(ed.nameField) && !Text.Blank(ed.textField)
    ensures Text.Trim(ed.nameField) == ed.nameField && Text.Trim(ed.textField) == ed.textField
  {
    Text.TrimmedIsKept(ed.nameField);
    Text.TrimmedIsKept(ed.textField);
  }

  /** Clicking "Edit" on the third of three prompts, then deleting the first. */
  lemma EditThirdDeleteFirst(a: Prompt, b: Prompt, c: Prompt)
    ensures var editing := EditPrompt(Editor([a, b, c], None, "", "", None), 2);
      && editing.editingIndex == Some(2) && editing.nameField == c.name
      && DeletePromptAsWritten(editing, 0, None).stored == [b, c]
      && DeletePromptAsWritten(editing, 0, None).editingIndex == Some(2)
      && DeletePromptAsWritten(editing, 0, None).nameField == c.name
      && DeletePrompt(editing, 0, None).stored == [b, c]
      && DeletePrompt(editing, 0, None).editingIndex == Some(1)
      && DeletePrompt(editing, 0, None).nameField == c.name
  {
    assert Splice([a, b, c], 0) == [b, c];
  }

  /** Saving an edit of the form for prompt `c` with edit index `i` over the list `[b, c]`. */
  lemma SaveEditOverTwo(d: Editor, b: Prompt, c: Prompt, newText: string, i: nat)
    requires Trimmed(c) && newText != [] && Text.IsTrimmed(newText)
    requires d.nameField == c.name && d.textField == newText && d.editingIndex == Some(i) && d.stored == [b, c]
    requires i == 1 || i == 2
    ensures var saved := AddPrompt(d, None);
      && saved.stored == (if i == 2 then [b, c, Prompt(c.name, newText)] else [b, Prompt(c.name, newText)])
      && saved.status == Some(Status("Prompt updated successfully!", Green))
  {
    TrimmedFormStoredAsIs(d);
    var p := Prompt(c.name, newText);
    assert p == Prompt(Text.Trim(d.nameField), Text.Trim(d.textField));
    var written := WritePrompt(d.stored, d.editingIndex, p);
    if i == 2 {
      assert written == [b, c, p];
    } else {
      assert written == [b, c][1 := p] == [b, p];
    }
  }

  /**
   * Edit the third of three prompts, delete the first, then save the edit with new text:
   * the page appends the edited prompt as a new third entry and keeps the unedited one,
   * while reporting "Prompt updated successfully!".
   */
  lemma DeleteWhileEditingAppends(a: Prompt, b: Prompt, c: Prompt, newText: string)
    requires Trimmed(c) && newText != [] && Text.IsTrimmed(newText)
    ensures var afterDelete := DeletePromptAsWritten(EditPrompt(Editor([a, b, c], None, "", "", None), 2), 0, None);
      && afterDelete.editingIndex == Some(2)
      && var saved := AddPrompt(afterDelete.(textField := newText), None);
         && saved.stored == [b, c, Prompt(c.name, newText)]
         && saved.status == Some(Status("Prompt updated successfully!", Green))
  {
    EditThirdDeleteFirst(a, b, c);
    var afterDelete := DeletePromptAsWritten(EditPrompt(Editor([a, b, c], None, "", "", None), 2), 0, None);
    SaveEditOverTwo(afterDelete.(textField := newText), b, c, newText, 2);
  }

  /** The same steps with the corrected delete update the prompt that was being edited. */
  lemma DeleteWhileEditingUpdates(a: Prompt, b: Prompt, c: Prompt, newText: string)
    requires Trimmed(c) && newText != [] && Text.IsTrimmed(newText)
    ensures var afterDelete := DeletePrompt(EditPrompt(Editor([a, b, c], None, "", "", None), 2), 0, None);
      && afterDelete.editingIndex == Some(1)
      && AddPrompt(afterDelete.(textField := newText), None).stored == [b, Prompt(c.name, newText)]
  {
    EditThirdDeleteFirst(a, b, c);
    var afterDelete := DeletePrompt(EditPrompt(Editor([a, b, c], None, "", "", None), 2), 0, None);
    SaveEditOverTwo(afterDelete.(textField := newText), b, c, newText, 1);
  }

  /** The settings form as `saveSettings` reads it; `min`/`max` are the size inputs' attributes. */
  datatype SettingsForm = SettingsForm(
    apiUrl: string,
    apiToken: string,
    modelName: string,
    checkedPosition: Option<string>,
    openOnHover: bool,
    widthValue: string,
    widthMin: string,
    widthMax: string,
    heightValue: string,
    heightMin: string,
    heightMax: string)

  /** What a save writes; the size keys are absent in the variant that has no size inputs. */
  datatype SavedSettings = SavedSettings(
    apiUrl: string,
    apiToken: string,
    modelName: string,
    menuPosition: string,
    openOnHover: bool,
    resultWidth: Option<int>,
    resultHeight: Option<int>)

  /** The written settings (none when validation or the write failed) and the status shown. */
  datatype SaveOutcome = SaveOutcome(written: Option<SavedSettings>, status: Status)

  const FieldsRequired: string := "All fields are required!"

  /** The checked radio's value, or `middle-center` when none is checked or its value is empty. */
  function CheckedPosition(form: SettingsForm): (r: string)
    ensures r != []
    ensures form.checkedPosition.Some? && form.checkedPosition.value != [] ==> r == form.checkedPosition.value
    ensures form.checkedPosition.None? || form.checkedPosition.value == [] ==> r == "middle-center"
  {
    if form.checkedPosition.Some? && form.checkedPosition.value != "" then form.checkedPosition.value
    else "middle-center"
  }

  /**
   * One size check: the value must parse to a positive integer, then lie within the
   * parsed `min` and `max`. A bound that does not parse is NaN, and every comparison with
   * NaN is false, so that bound never rejects.
   */
  function CheckDimension(field: string, value: string, min: string, max: string): (r: Result<int, string>)
    ensures r.Ok? <==>
              && Numbers.ParseInt(value).Some? && Numbers.ParseInt(value).value > 0
              && (Numbers.ParseInt(min).Some? ==> Numbers.ParseInt(min).value <= Numbers.ParseInt(value).value)
              && (Numbers.ParseInt(max).Some? ==> Numbers.ParseInt(value).value <= Numbers.ParseInt(max).value)
    ensures r.Ok? ==> Numbers.ParseInt(value) == Some(r.value)
    ensures (Numbers.ParseInt(value).None? || Numbers.ParseInt(value).value <= 0) ==>
              r == Err(field + " must be a positive number!")
  {
    var v := Numbers.ParseInt(value);
    var lo := Numbers.ParseInt(min);
    var hi := Numbers.ParseInt(max);
    if v.None? || v.value <= 0 then Err(field + " must be a positive number!")
    else if (lo.Some? && v.value < lo.value) || (hi.Some? && v.value > hi.value) then
      Err(field + " must be between " + Numbers.NumberText(lo) + " and " + Numbers.NumberText(hi) + " pixels!")
    else Ok(v.value)
  }

  function WriteOutcome(settings: SavedSettings, storeError: Option<string>): SaveOutcome {
    match storeError
    case Some(msg) => SaveOutcome(None, Status("Save error: " + msg, Red))
    case None => SaveOutcome(Some(settings), Status("Settings saved successfully!", Green))
  }

  /** The three required fields are filled in and both sizes pass their checks. */
  predicate Validated(form: SettingsForm) {
    && form.apiUrl != "" && form.apiToken != "" && form.modelName != ""
    && CheckDimension("Width", form.widthValue, form.widthMin, form.widthMax).Ok?
    && CheckDimension("Height", form.heightValue, form.heightMin, form.heightMax).Ok?
  }

  /**
   * `saveSettings` with the result-size inputs: URL, token and model must be non-empty,
   * then the width is checked, then the height; the first failure is reported and nothing
   * is written. Otherwise the seven keys are written.
   */
  function SaveSettings(form: SettingsForm, storeError: Option<string>): (r: SaveOutcome)
    ensures r.written.Some? <==>
              && form.apiUrl != "" && form.apiToken != "" && form.modelName != ""
              && CheckDimension("Width", form.widthValue, form.widthMin, form.widthMax).Ok?
              && CheckDimension("Height", form.heightValue, form.heightMin, form.heightMax).Ok?
              && storeError.None?
    ensures form.apiUrl == "" || form.apiToken == "" || form.modelName == "" ==>
              r == SaveOutcome(None, Status(FieldsRequired, Red))
    ensures form.apiUrl != "" && form.apiToken != "" && form.modelName != "" &&
            CheckDimension("Width", form.widthValue, form.widthMin, form.widthMax).Err? ==>
              r == SaveOutcome(None, Status(CheckDimension("Width", form.widthValue, form.widthMin, form.widthMax).error, Red))
    ensures form.apiUrl != "" && form.apiToken != "" && form.modelName != "" &&
            CheckDimension("Width", form.widthValue, form.widthMin, form.widthMax).Ok? &&
            CheckDimension("Height", form.heightValue, form.heightMin, form.heightMax).Err? ==>
              r == SaveOutcome(None, Status(CheckDimension("Height", form.heightValue, form.heightMin, form.heightMax).error, Red))
    ensures Validated(form) && storeError.Some? ==>
              r == SaveOutcome(None, Status("Save error: " + storeError.value, Red))
    ensures Validated(form) && storeError.None? ==> r.status == Status("Settings saved successfully!", Green)
    ensures r.written.Some? ==>
              && r.written.value.apiUrl == form.apiUrl
              && r.written.value.apiToken == form.apiToken
              && r.written.value.modelName == form.modelName
              && r.written.value.menuPosition == CheckedPosition(form)
              && r.written.value.openOnHover == form.openOnHover
              && r.written.value.resultWidth == Numbers.ParseInt(form.widthValue)
              && r.written.value.resultHeight == Numbers.ParseInt(form.heightValue)
              && r.written.value.resultWidth.value > 0 && r.written.value.resultHeight.value > 0
  {
    if form.apiUrl == "" || form.apiToken == "" || form.modelName == "" then
      SaveOutcome(None, Status(FieldsRequired, Red))
    else
      match CheckDimension("Width", form.widthValue, form.widthMin, form.widthMax)
      case Err(e) => SaveOutcome(None, Status(e, Red))
      case Ok(width) =>
        match CheckDimension("Height", form.heightValue, form.heightMin, form.heightMax)
        case Err(e) => SaveOutcome(None, Status(e, Red))
        case Ok(height) =>
          WriteOutcome(SavedSettings(form.apiUrl, form.apiToken, form.modelName, CheckedPosition(form),
                                     form.openOnHover, Some(width), Some(height)), storeError)
  }

  /**
   * `saveSettings` without the size inputs: only URL, token and model are required, and
   * exactly the five remaining keys are written, whatever the size fields hold.
   */
  function SaveSettingsBasic(form: SettingsForm, storeError: Option<string>): (r: SaveOutcome)
    ensures r.written.Some? <==> form.apiUrl != "" && form.apiToken != "" && form.modelName != "" && storeError.None?
    ensures form.apiUrl == "" || form.apiToken == "" || form.modelName == "" ==>
              r == SaveOutcome(None, Status(FieldsRequired, Red))
    ensures r.written.Some? ==>
              r.written.value == SavedSettings(form.apiUrl, form.apiToken, form.modelName, CheckedPosition(form),
                                               form.openOnHover, None, None)
    ensures form.apiUrl != "" && form.apiToken != "" && form.modelName != "" ==>
              r.status == (if storeError.Some? then Status("Save error: " + storeError.value, Red)
                           else Status("Settings saved successfully!", Green))
  {
    if form.apiUrl == "" || form.apiToken == "" || form.modelName == "" then
      SaveOutcome(None, Status(FieldsRequired, Red))
    else
      WriteOutcome(SavedSettings(form.apiUrl, form.apiToken, form.modelName, CheckedPosition(form),
                                 form.openOnHover, None, None), storeError)
  }

  /** The keys `loadSettings` reads; a key absent from storage is `None`. */
  datatype StoredSettings = StoredSettings(
    apiUrl: Option<string>,
    apiToken: Option<string>,
    modelName: Option<string>,
    menuPosition: Option<string>,
    openOnHover: Option<bool>,
    resultWidth: Option<int>,
    resultHeight: Option<int>)

  /** The form `loadSettings` fills in on a freshly opened page. */
  datatype LoadedForm = LoadedForm(
    apiUrl: string,
    apiToken: string,
    modelName: string,
    checkedPosition: Option<string>,
    openOnHover: bool,
    widthValue: string,
    heightValue: string)

  const DefaultResultWidth: int := 500
  const DefaultResultHeight: int := 600

  /** `value || fallback` for a stored number: absent or 0 takes the fallback. */
  function NumberOr(v: Option<int>, fallback: int): (r: int)
    ensures v.Some? && v.value != 0 ==> r == v.value
    ensures v.None? || v.value == 0 ==> r == fallback
  {
    if v.Some? && v.value != 0 then v.value else fallback
  }

  /** The radio button `loadSettings` checks for a position: the one with that value, if any. */
  function RadioFor(position: string): (r: Option<string>)
    ensures r.Some? ==> r.value == position && Geometry.IsPresetName(position)
    ensures Geometry.IsPresetName(position) ==> r == Some(position)
  {
    if Geometry.IsPresetName(position) then Some(position) else None
  }

  /** A size input's text for a stored number: it parses back to that number. */
  function SizeText(n: int): (r: string)
    ensures Numbers.ParseInt(r) == Some(n)
  {
    Numbers.ParseIntOfIntToString(n);
    Numbers.IntToString(n)
  }

  /**
   * `loadSettings`: URL and token fill their fields when set, the model select shows the
   * saved model or its empty placeholder, the radio whose value is the stored position
   * (default `middle-center`) is checked if there is one, hover defaults to off, and the
   * sizes default to 500 and 600.
   */
  function LoadSettings(st: StoredSettings): (r: LoadedForm)
    ensures r.apiUrl == (if Present(st.apiUrl) then st.apiUrl.value else "")
    ensures r.apiToken == (if Present(st.apiToken) then st.apiToken.value else "")
    ensures r.modelName == (if Present(st.modelName) then st.modelName.value else "")
    ensures !Present(st.menuPosition) ==> r.checkedPosition == Some("middle-center")
    ensures Present(st.menuPosition) ==> r.checkedPosition == RadioFor(st.menuPosition.value)
    ensures r.openOnHover <==> st.openOnHover.Some? && st.openOnHover.value
    ensures Numbers.ParseInt(r.widthValue) == Some(NumberOr(st.resultWidth, DefaultResultWidth))
    ensures Numbers.ParseInt(r.heightValue) == Some(NumberOr(st.resultHeight, DefaultResultHeight))
  {
    assert Geometry.PresetName(Geometry.Middle, Geometry.Center) == "middle-center";
    var position := if Present(st.menuPosition) then st.menuPosition.value else "middle-center";
    LoadedForm(
      if Present(st.apiUrl) then st.apiUrl.value else "",
      if Present(st.apiToken) then st.apiToken.value else "",
      if Present(st.modelName) then st.modelName.value else "",
      RadioFor(position),
      st.openOnHover.GetOr(false),
      SizeText(NumberOr(st.resultWidth, DefaultResultWidth)),
      SizeText(NumberOr(st.resultHeight, DefaultResultHeight)))
  }

  /** Storage after a successful save: every written key present. */
  function StoredOf(w: SavedSettings): StoredSettings {
    StoredSettings(Some(w.apiUrl), Some(w.apiToken), Some(w.modelName), Some(w.menuPosition),
                   Some(w.openOnHover), w.resultWidth, w.resultHeight)
  }

  /** The form a reload shows, with the size inputs' attributes of the page. */
  function Reloaded(l: LoadedForm, attributes: SettingsForm): SettingsForm {
    attributes.(apiUrl := l.apiUrl, apiToken := l.apiToken, modelName := l.modelName,
                checkedPosition := l.checkedPosition, openOnHover := l.openOnHover,
                widthValue := l.widthValue, heightValue := l.heightValue)
  }

  /**
   * Save then reload: what a successful save wrote loads back unchanged (validation rules
   * out the empty and zero values the defaults replace), so saving the reloaded form
   * writes the same settings again. The radio values are assumed to be the preset names.
   */
  lemma SaveLoadRoundTrip(form: SettingsForm)
    requires form.checkedPosition.Some? ==> Geometry.IsPresetName(form.checkedPosition.value)
    requires SaveSettings(form, None).written.Some?
    ensures var w := SaveSettings(form, None).written.value;
      SaveSettings(Reloaded(LoadSettings(StoredOf(w)), form), None).written == Some(w)
  {
    var w := SaveSettings(form, None).written.value;
    var l := LoadSettings(StoredOf(w));
    Geometry.MiddleCenterIsPreset();
    assert l.checkedPosition == Some(w.menuPosition);
    var again := Reloaded(l, form);
    assert CheckedPosition(again) == w.menuPosition;
    SameSizeCheck("Width", again.widthValue, form.widthValue, form.widthMin, form.widthMax);
    SameSizeCheck("Height", again.heightValue, form.heightValue, form.heightMin, form.heightMax);
    SameSave(again, form);
  }

  /** A size check looks at the value only through `parseInt`. */
  lemma SameSizeCheck(field: string, v1: string, v2: string, min: string, max: string)
    requires Numbers.ParseInt(v1) == Numbers.ParseInt(v2)
    ensures CheckDimension(field, v1, min, max) == CheckDimension(field, v2, min, max)
  {
  }

  /** Two forms that agree on what a save reads save the same way. */
  lemma SameSave(f1: SettingsForm, f2: SettingsForm)
    requires f1.apiUrl == f2.apiUrl && f1.apiToken == f2.apiToken && f1.modelName == f2.modelName
    requires CheckedPosition(f1) == CheckedPosition(f2) && f1.openOnHover == f2.openOnHover
    requires CheckDimension("Width", f1.widthValue, f1.widthMin, f1.widthMax)
          == CheckDimension("Width", f2.widthValue, f2.widthMin, f2.widthMax)
    requires CheckDimension("Height", f1.heightValue, f1.heightMin, f1.heightMax)
          == CheckDimension("Height", f2.heightValue, f2.heightMin, f2.heightMax)
    ensures SaveSettings(f1, None) == SaveSettings(f2, None)
  {
  }

  /** What the model-list fetch receives: a thrown error, a non-ok status, or a JSON body. */
  datatype FetchFailure = FailedToFetch | NotJson | OtherError(message: string)
  datatype ModelsReply =
    | Thrown(failure: FetchFailure)
    | NotOk(status: int, statusText: string)
    | Body(data: Option<seq<string>>)           // the model ids when `data` is an array

  /** The GET request `fetchModels` issues. */
  datatype ModelsRequest = ModelsRequest(url: string, authorization: string)

  /** The request made (if any), the status lines shown in order, and the sorted model ids (if listed). */
  datatype FetchOutcome = FetchOutcome(request: Option<ModelsRequest>, statuses: seq<Status>, models: Option<seq<string>>)

  const Testing: Status := Status("Testing connection...", Blue)

  /**
   * `fetchModels`: URL and token are required and the URL must parse (`validUrl`, the
   * `new URL` check); the request goes to `<apiUrl>/models` with one slash; a listed body
   * yields the ids sorted by `leq` (the `localeCompare` order).
   */
  function FetchModels(apiUrl: string, apiToken: string, validUrl: bool, reply: ModelsReply,
                       leq: (string, string) -> bool): (r: FetchOutcome)
    requires Sorting.IsTotalPreorder(leq)
    ensures r.request.Some? <==> apiUrl != "" && apiToken != "" && validUrl
    ensures r.request.Some? ==> r.request.value == ModelsRequest(Relay.JoinUrl(apiUrl, "models"), "Bearer " + apiToken)
    ensures r.request.Some? ==> |r.statuses| == 2 && r.statuses[0] == Testing
    ensures r.request.None? ==> |r.statuses| == 1 && r.models.None?
    ensures r.models.Some? <==> r.request.Some? && reply.Body? && reply.data.Some?
    ensures r.models.Some? ==>
              && multiset(r.models.value) == multiset(reply.data.value)
              && Sorting.SortedBy(r.models.value, leq)
              && r.statuses[1] == Status("Found " + Numbers.NatToString(|reply.data.value|) + " models", Green)
  {
    if apiUrl == "" || apiToken == "" then
      FetchOutcome(None, [Status("Please provide URL and token for testing", Red)], None)
    else if !validUrl then
      FetchOutcome(None, [Status("Invalid URL format", Red)], None)
    else
      var request := ModelsRequest(Relay.JoinUrl(apiUrl, "models"), "Bearer " + apiToken);
      var final :=
        match reply
        case Thrown(FailedToFetch) => Status("Network error: check URL and CORS settings", Red)
        case Thrown(NotJson) => Status("Invalid response format from server", Red)
        case Thrown(OtherError(m)) => Status("Connection error: " + m, Red)
        case NotOk(code, text) => Status("Error: " + Numbers.IntToString(code) + " " + text, Red)
        case Body(None) => Status("Response does not match OpenRouter API format", Red)
        case Body(Some(ids)) => Status("Found " + Numbers.NatToString(|ids|) + " models", Green);
      var models := if reply.Body? && reply.data.Some? then Some(Sorting.InsertionSort(reply.data.value, leq)) else None;
      FetchOutcome(Some(request), [Testing, final], models)
  }
}

=== FILE: relay.dfy ===
/**
 * The background relay: the chat-completions request it builds for the page script,
 * the `{success, data|error}` result it sends back, the context-menu item list it
 * builds from the saved prompts, and how a context-menu click is routed.
 */
module Relay {
  import opened Wrappers
  import Text
  import Numbers
  import opened Store

  /**
   * `base` and `path` joined with exactly one `/` at the seam when `base` has at most
   * one trailing slash: `base + path` if `base` ends in `/`, else `base + "/" + path`.
   */
  function JoinUrl(base: string, path: string): (r: string)
    ensures Text.EndsWith(r, "/" + path)
    ensures Text.EndsWith(base, "/") ==> r == base[..|base| - 1] + "/" + path
    ensures !Text.EndsWith(base, "/") ==> |r| == |base| + 1 + |path| && r[..|base|] == base
  {
    if Text.EndsWith(base, "/") then
      assert base == base[..|base| - 1] + "/";
      base + path
    else base + "/" + path
  }

  /** The endpoint `callAPI` posts to. */
  function ChatEndpoint(apiUrl: string): (r: string)
    ensures Text.EndsWith(r, "/chat/completions")
    ensures Text.EndsWith(apiUrl, "/") ==> r == apiUrl + "chat/completions"
    ensures !Text.EndsWith(apiUrl, "/") ==> r == apiUrl + "/chat/completions"
  {
    assert "/" + "chat/completions" == "/chat/completions";
    JoinUrl(apiUrl, "chat/completions")
  }

  /** One chat message of the request body. */
  datatype ChatMessage = ChatMessage(role: string, content: string)

  /** The parts of the POST request that `callAPI` fills in. */
  datatype ChatRequest = ChatRequest(
    endpoint: string,
    authorization: string,
    model: string,
    messages: seq<ChatMessage>,
    sendsReferrer: bool)

  /**
   * The request `callAPI` sends: bearer authorisation, the configured model, exactly one
   * user-role message holding the full prompt, and no referrer.
   */
  function BuildChatRequest(apiUrl: string, apiToken: string, modelName: string, fullPrompt: string): (req: ChatRequest)
    ensures |req.messages| == 1
    ensures req.messages[0] == ChatMessage("user", fullPrompt)
    ensures req.model == modelName
    ensures req.endpoint == ChatEndpoint(apiUrl)
    ensures Text.EndsWith(apiUrl, "/") ==> req.endpoint == apiUrl + "chat/completions"
    ensures !Text.EndsWith(apiUrl, "/") ==> req.endpoint == apiUrl + "/chat/completions"
    ensures Text.StartsWith(req.authorization, "Bearer ") && req.authorization[7..] == apiToken
    ensures !req.sendsReferrer
  {
    ChatRequest(ChatEndpoint(apiUrl), "Bearer " + apiToken, modelName, [ChatMessage("user", fullPrompt)], false)
  }

  /** The chat-completion body shape the page script reads: `choices[0].message.content`. */
  datatype Message = Message(content: string)
  /** An element of `choices`; `NullChoice` is a JSON `null` element. */
  datatype Choice = NullChoice | Choice(message: Option<Message>)
  /** The decoded JSON body; `choices` is absent when the key is missing. */
  datatype CompletionData = CompletionData(choices: Option<seq<Choice>>)

  /** What `fetch` and `response.json()` produce. */
  datatype HttpOutcome =
    | NetworkFailure(message: string)
    | HttpResponse(status: int, statusText: string, body: Result<CompletionData, string>)

  /** The relay's reply: `{success: true, data}` or `{success: false, error}`. */
  datatype ApiResult = ApiSuccess(data: CompletionData) | ApiFailure(error: string)

  predicate StatusOk(status: int) {
    200 <= status <= 299
  }

  /**
   * `callAPI`'s result: a thrown network error or JSON parse error becomes its message;
   * a non-2xx status becomes `API error: <status> <statusText>`; otherwise the data.
   */
  function CallApiResult(outcome: HttpOutcome): (r: ApiResult)
    ensures r.ApiSuccess? <==> outcome.HttpResponse? && StatusOk(outcome.status) && outcome.body.Ok?
    ensures r.ApiSuccess? ==> r.data == outcome.body.value
    ensures outcome.HttpResponse? && !StatusOk(outcome.status) ==>
              r == ApiFailure("API error: " + Numbers.IntToString(outcome.status) + " " + outcome.statusText)
    ensures outcome.HttpResponse? && StatusOk(outcome.status) && outcome.body.Err? ==>
              r == ApiFailure(outcome.body.error)
    ensures outcome.NetworkFailure? ==> r == ApiFailure(outcome.message)
  {
    match outcome
    case NetworkFailure(message) => ApiFailure(message)
    case HttpResponse(status, statusText, body) =>
      if !StatusOk(status) then
        ApiFailure("API error: " + Numbers.IntToString(status) + " " + statusText)
      else
        match body
        case Err(parseError) => ApiFailure(parseError)
        case Ok(data) => ApiSuccess(data)
  }

  /** Where a context-menu item is offered. */
  datatype MenuContext = SelectionContext | PageContext

  datatype ItemType = NormalItem | SeparatorItem

  datatype MenuItem = MenuItem(
    id: string,
    parentId: Option<string>,
    title: Option<string>,
    itemType: ItemType,
    contexts: seq<MenuContext>)

  const ParentId: string := "promptbridge-parent"
  const SettingsId: string := "settings"
  const SeparatorId: string := "separator"
  const PromptIdPrefix: string := "prompt-"

  /** The id of the item for the prompt at `index`. */
  function PromptItemId(index: nat): string {
    PromptIdPrefix + Numbers.NatToString(index)
  }

  function ParentItem(): MenuItem {
    MenuItem(ParentId, None, Some("PromptBridge"), NormalItem, [SelectionContext, PageContext])
  }

  function PromptItem(index: nat, p: Prompt): MenuItem {
    MenuItem(PromptItemId(index), Some(ParentId), Some(p.name), NormalItem, [SelectionContext])
  }

  function SeparatorEntry(): MenuItem {
    MenuItem(SeparatorId, Some(ParentId), None, SeparatorItem, [SelectionContext])
  }

  function SettingsItem(): MenuItem {
    MenuItem(SettingsId, Some(ParentId), Some("Settings"), NormalItem, [SelectionContext, PageContext])
  }

  /** One item per prompt, numbered from `start`, in list order. */
  function PromptItems(prompts: seq<Prompt>, start: nat): (items: seq<MenuItem>)
    ensures |items| == |prompts|
    ensures forall i :: 0 <= i < |prompts| ==> items[i] == PromptItem(start + i, prompts[i])
  {
    if prompts == [] then []
    else [PromptItem(start, prompts[0])] + PromptItems(prompts[1..], start + 1)
  }

  /** The items `createContextMenu` creates, in creation order. */
  function ContextMenuItems(prompts: seq<Prompt>): seq<MenuItem>
  {
    [ParentItem()]
    + PromptItems(prompts, 0)
    + (if |prompts| > 0 then [SeparatorEntry()] else [])
    + [SettingsItem()]
  }

  /**
   * Shape of the context menu: the parent first, then `prompt-<i>` titled with prompt
   * i's name and offered only on a selection, for each prompt in order, then a separator
   * exactly when there are prompts, and the settings item last.
   */
  lemma ContextMenuShape(prompts: seq<Prompt>)
    ensures var items := ContextMenuItems(prompts);
      && |items| == |prompts| + (if |prompts| > 0 then 3 else 2)
      && items[0] == ParentItem()
      && (forall i :: 0 <= i < |prompts| ==>
            items[i + 1].id == PromptItemId(i) && items[i + 1].title == Some(prompts[i].name)
            && items[i + 1].parentId == Some(ParentId) && items[i + 1].contexts == [SelectionContext])
      && (|prompts| > 0 ==> items[|prompts| + 1] == SeparatorEntry())
      && items[|items| - 1] == SettingsItem()
      && (forall k :: 0 <= k < |items| && items[k].itemType == SeparatorItem ==> |prompts| > 0)
  {
    var body := PromptItems(prompts, 0);
    var tail := (if |prompts| > 0 then [SeparatorEntry()] else []) + [SettingsItem()];
    var items := [ParentItem()] + (body + tail);
    assert ContextMenuItems(prompts) == items;
    forall i | 0 <= i < |prompts|
      ensures items[i + 1] == PromptItem(i, prompts[i])
    {
      assert items[i + 1] == body[i];
    }
    forall k | 0 <= k < |items|
      ensures items[k].itemType == SeparatorItem ==> |prompts| > 0
    {
      if k > 0 && k <= |prompts| { assert items[k] == body[k - 1]; }
    }
  }

  /** What a context-menu click leads to. */
  datatype ClickAction =
    | OpenOptionsPage
    | SendExecutePrompt(promptIndex: Option<int>, selectedText: string)
    | NoAction

  /**
   * `contextMenus.onClicked`: the settings item opens the options page; an id starting
   * with `prompt-` has that text replaced and the rest read with `parseInt` (possibly
   * NaN), and an `executePrompt` message goes to the tab; every other id does nothing.
   */
  function RouteClick(menuItemId: string, selectionText: string): ClickAction
  {
    if menuItemId == SettingsId then OpenOptionsPage
    else if Text.StartsWith(menuItemId, PromptIdPrefix) then
      var rest := Text.ReplaceFirst(menuItemId, PromptIdPrefix, "");
      SendExecutePrompt(Numbers.ParseInt(rest), selectionText)
    else NoAction
  }

  /** The prompt id round-trips: clicking `prompt-<i>` asks the tab to run prompt `i`. */
  lemma RoutePromptItem(index: nat, selectionText: string)
    ensures RouteClick(PromptItemId(index), selectionText) == SendExecutePrompt(Some(index), selectionText)
  {
    var digits := Numbers.NatToString(index);
    var id := PromptIdPrefix + digits;
    assert Text.StartsWith(id, PromptIdPrefix) by {
      assert id[..|PromptIdPrefix|] == PromptIdPrefix;
    }
    assert id != SettingsId by {
      assert id[1] == 'r' && SettingsId[1] == 'e';
    }
    var rest := Text.ReplaceFirst(id, PromptIdPrefix, "");
    Text.ReplaceFirstOfPrefix(id, PromptIdPrefix, "");
    assert rest == digits by {
      assert id[|PromptIdPrefix|..] == digits;
    }
    Numbers.ParseIntOfIntToString(index);
    assert Numbers.IntToString(index) == digits;
    assert Numbers.ParseInt(rest) == Some(index as int);
  }

  /**
   * Every item of the built menu routes as intended: prompt item `i` runs prompt `i`, the
   * settings item opens the options page, and the parent and the separator do nothing.
   */
  lemma RouteEveryItem(prompts: seq<Prompt>, selectionText: string)
    ensures var items := ContextMenuItems(prompts);
      && (forall i :: 0 <= i < |prompts| ==>
            RouteClick(items[i + 1].id, selectionText) == SendExecutePrompt(Some(i), selectionText))
      && RouteClick(items[|items| - 1].id, selectionText) == OpenOptionsPage
      && RouteClick(items[0].id, selectionText) == NoAction
      && (|prompts| > 0 ==> RouteClick(items[|prompts| + 1].id, selectionText) == NoAction)
  {
    ContextMenuShape(prompts);
    forall i | 0 <= i < |prompts|
      ensures RouteClick(PromptItemId(i), selectionText) == SendExecutePrompt(Some(i), selectionText)
    {
      RoutePromptItem(i, selectionText);
    }
    assert !Text.StartsWith(ParentId, PromptIdPrefix) by {
      assert ParentId[6] != PromptIdPrefix[6];
    }
    assert !Text.StartsWith(SeparatorId, PromptIdPrefix) by {
      assert SeparatorId[0] != PromptIdPrefix[0];
    }
  }

  /** `storage.onChanged`: the menu is rebuilt only for a change to `prompts` in the sync area. */
  function RebuildOnChange(areaName: string, changedKeys: set<string>): (rebuild: bool)
    ensures areaName != "sync" ==> !rebuild
    ensures "prompts" !in changedKeys ==> !rebuild
    ensures areaName == "sync" && "prompts" in changedKeys ==> rebuild
  {
    areaName == "sync" && "prompts" in changedKeys
  }
}

=== FILE: session.dfy ===
/**
 * The page-injected script as a state machine: the selection menu, the result overlay,
 * the `isProcessing` gate, and the asynchronous continuations (storage reads and relay
 * replies) that are still outstanding. Each browser event or continuation is one `Event`
 * and `Step` applies it. The DOM is reduced to the state the handlers read and write.
 */
module Session {
  import opened Wrappers
  import Text
  import opened Store
  import Geometry
  import Relay

  /** What the menu offers besides its toggle button. */
  datatype MenuKind = PromptButtons(prompts: seq<Prompt>) | SettingsButton

  /**
   * The selection menu: anchor, offered buttons, which of them are displayed, whether
   * hovering opens them, and whether the toggle shows the loading spinner.
   */
  datatype Menu = Menu(
    anchor: Geometry.Point,
    kind: MenuKind,
    shown: seq<bool>,
    openOnHover: bool,
    loading: bool)

  /** One display flag per button: one per prompt, or the single "Open Settings" button. */
  predicate MenuWellFormed(m: Menu) {
    match m.kind
    case PromptButtons(ps) => |ps| >= 1 && |m.shown| == |ps|
    case SettingsButton => |m.shown| == 1
  }

  /** The result overlay and the text it shows. */
  datatype Overlay = Overlay(text: string)

  /** The `callAPI` message the page sends to the relay. */
  datatype CallApiMessage = CallApiMessage(apiUrl: string, apiToken: string, modelName: string, fullPrompt: string)

  /** Continuations the script is waiting for. */
  datatype Pending =
    | MenuRead(x: real, y: real)                        // settings read issued by createSelectionMenu
    | ConfigRead(prompt: Prompt, selection: string)     // API settings read in handlePromptSelection
    | AwaitReply(message: CallApiMessage)               // relay reply to a callAPI message

  /** Effects leaving the page script. */
  datatype Outbound = CallApi(message: CallApiMessage) | OpenOptions | Alert(text: string)

  /**
   * The script's module-level state. `orphanMenus` counts menu elements still attached to
   * the document that `selectionMenu` no longer refers to, so nothing can remove them.
   */
  datatype State = State(
    menu: Option<Menu>,
    orphanMenus: nat,
    overlay: Option<Overlay>,
    processing: bool,
    lastMouse: Geometry.Point,
    pending: seq<Pending>,
    outbox: seq<Outbound>)

  function Initial(): State {
    State(None, 0, None, false, Geometry.Point(0.0, 0.0), [], [])
  }

  predicate WellFormed(s: State) {
    s.menu.Some? ==> MenuWellFormed(s.menu.value)
  }

  /** The settings `createSelectionMenu` reads. */
  datatype MenuSettings = MenuSettings(prompts: Option<seq<Prompt>>, menuPosition: Option<string>, openOnHover: Option<bool>)

  /** The settings `handlePromptSelection` reads. */
  datatype ApiConfig = ApiConfig(apiUrl: Option<string>, apiToken: Option<string>, modelName: Option<string>)

  predicate Configured(c: ApiConfig) {
    Present(c.apiUrl) && Present(c.apiToken) && Present(c.modelName)
  }

  datatype Event =
    | MouseUp(button: int, clientX: real, clientY: real, onMenu: bool, selection: string, scrollX: real, scrollY: real)
    | MenuSettingsLoaded(k: nat, settings: MenuSettings)
    | MouseDown(onMenu: bool, onOverlay: bool)
    | KeyDown(key: string)
    | ContextMenu
    | ToggleClick
    | HoverEnter
    | HoverLeave
    | PromptClick(index: nat, selection: string)
    | SettingsClick
    | ConfigLoaded(k: nat, config: ApiConfig, sendError: Option<string>)
    | RelayReply(k: nat, reply: Relay.ApiResult)
    | ExecutePrompt(promptIndex: Option<int>, selectedText: string, storedPrompts: Option<seq<Prompt>>)

  const NotConfiguredAlert: string := "Error: API settings are not configured. Please configure the extension."
  const FormatError: string := "Error: unexpected response format from API"
  const PromptNotFound: string := "Error: Prompt not found"

  /** `data.choices[0].message` when `choices` is present, non-empty and its first element has one. */
  function FirstMessage(data: Relay.CompletionData): Option<Relay.Message> {
    match data.choices
    case None => None
    case Some(cs) =>
      if |cs| > 0 && cs[0].Choice? then cs[0].message else None
  }

  /**
   * The overlay text for a relay reply: the first choice's content, the format error for
   * a success without one, or `Error accessing API: <error>` for a failure.
   */
  function ReplyText(reply: Relay.ApiResult): (text: string)
    ensures reply.ApiFailure? ==> text == "Error accessing API: " + reply.error
    ensures reply.ApiSuccess? && FirstMessage(reply.data).Some? ==> text == FirstMessage(reply.data).value.content
    ensures reply.ApiSuccess? && FirstMessage(reply.data).None? ==> text == FormatError
  {
    match reply
    case ApiFailure(e) => "Error accessing API: " + e
    case ApiSuccess(data) =>
      match FirstMessage(data)
      case Some(m) => m.content
      case None => FormatError
  }

  /** `handlePromptSelection`'s full prompt: the prompt text, a blank line, the selection. */
  function FullPrompt(p: Prompt, selection: string): (r: string)
    ensures |r| == |p.text| + 2 + |selection|
    ensures Text.StartsWith(r, p.text)
    ensures Text.EndsWith(r, selection)
    ensures r[|p.text|..|p.text| + 2] == "\n\n"
  {
    var r := p.text + "\n\n" + selection;
    assert r[..|p.text|] == p.text;
    assert r[|r| - |selection|..] == selection;
    r
  }

  function AllHidden(n: nat): (r: seq<bool>)
    ensures |r| == n && forall i :: 0 <= i < n ==> !r[i]
  {
    seq(n, _ => false)
  }

  function AllShown(n: nat): (r: seq<bool>)
    ensures |r| == n && forall i :: 0 <= i < n ==> r[i]
  {
    seq(n, _ => true)
  }

  /**
   * `togglePromptButtons`: with no menu nothing happens; otherwise every button gets the
   * opposite of the first button's display state (no button: all hidden, vacuously).
   */
  function TogglePromptButtons(menu: Option<Menu>): (r: Option<Menu>)
    ensures menu.None? ==> r.None?
    ensures menu.Some? ==> r.Some? && r.value == menu.value.(shown := r.value.shown)
    ensures menu.Some? ==> |r.value.shown| == |menu.value.shown|
    ensures menu.Some? && |menu.value.shown| > 0 ==>
              forall i :: 0 <= i < |r.value.shown| ==> r.value.shown[i] == !menu.value.shown[0]
  {
    match menu
    case None => None
    case Some(m) =>
      var isVisible := |m.shown| == 0 || m.shown[0];
      Some(m.(shown := if isVisible then AllHidden(|m.shown|) else AllShown(|m.shown|)))
  }

  /**
   * The menu the settings-read callback builds: one hidden button per stored prompt, or
   * the single "Open Settings" button when there are none; anchored by
   * `calculateMenuPosition` at the stored preset (middle-center when unset); hover opens
   * it only when that setting is stored as true; the toggle idle.
   */
  function NewMenu(x: real, y: real, settings: MenuSettings): (m: Menu)
    ensures MenuWellFormed(m)
    ensures forall i :: 0 <= i < |m.shown| ==> !m.shown[i]
    ensures !m.loading
    ensures settings.prompts.Some? && settings.prompts.value != [] ==> m.kind == PromptButtons(settings.prompts.value)
    ensures settings.prompts.None? || settings.prompts.value == [] ==> m.kind == SettingsButton
    ensures Present(settings.menuPosition) ==>
              m.anchor == Geometry.MenuPosition(Geometry.Point(x, y), settings.menuPosition.value)
    ensures !Present(settings.menuPosition) ==> m.anchor == Geometry.Point(x - 22.0, y - 22.0)
    ensures m.openOnHover <==> settings.openOnHover == Some(true)
  {
    var prompts := settings.prompts.GetOr([]);
    var position := if Present(settings.menuPosition) then settings.menuPosition.value else "middle-center";
    var anchor := Geometry.MenuPosition(Geometry.Point(x, y), position);
    var kind := if |prompts| == 0 then SettingsButton else PromptButtons(prompts);
    Menu(anchor, kind, AllHidden(if |prompts| == 0 then 1 else |prompts|), settings.openOnHover.GetOr(false), false)
  }

  function RemoveAt<T>(s: seq<T>, k: nat): (r: seq<T>)
    requires k < |s|
    ensures |r| == |s| - 1
    ensures forall i :: 0 <= i < k ==> r[i] == s[i]
    ensures forall i :: k <= i < |r| ==> r[i] == s[i + 1]
  {
    s[..k] + s[k + 1..]
  }

  /**
   * `createSelectionMenu`: nothing while a request is processing; otherwise the current
   * menu is removed and, for a non-blank selection, a settings read is started whose
   * callback builds the new menu.
   */
  function CreateSelectionMenu(s: State, x: real, y: real, selection: string): (t: State)
    ensures s.processing ==> t == s
    ensures !s.processing ==> t.menu.None?
    ensures !s.processing && Text.Trim(selection) == [] ==> t == s.(menu := None)
    ensures !s.processing && Text.Trim(selection) != [] ==>
              t == s.(menu := None, pending := s.pending + [MenuRead(x, y)])
  {
    if s.processing then s
    else
      var s1 := s.(menu := None);
      if Text.Trim(selection) == [] then s1
      else s1.(pending := s1.pending + [MenuRead(x, y)])
  }

  /** Menu and overlay removed, the request finished: what every reply path does first. */
  function Finish(s: State, text: string): State {
    s.(processing := false, menu := None, overlay := Some(Overlay(text)))
  }

  function Step(s: State, e: Event): State
  {
    match e
    case MouseUp(button, cx, cy, onMenu, selection, scrollX, scrollY) =>
      if button == 2 then s
      else if s.menu.Some? && onMenu then s
      else
        var s1 := s.(lastMouse := Geometry.Point(cx, cy));
        if Text.Trim(selection) == [] then s1
        else CreateSelectionMenu(s1, cx + scrollX, cy + scrollY, selection)

    case MenuSettingsLoaded(k, settings) =>
      if k < |s.pending| && s.pending[k].MenuRead? then
        var read := s.pending[k];
        s.(menu := Some(NewMenu(read.x, read.y, settings)),
           orphanMenus := s.orphanMenus + (if s.menu.Some? then 1 else 0),
           pending := RemoveAt(s.pending, k))
      else s

    case MouseDown(onMenu, onOverlay) =>
      var s1 := if s.menu.Some? && !onMenu && !s.processing then s.(menu := None) else s;
      if s1.overlay.Some? && !onOverlay then s1.(overlay := None) else s1

    case KeyDown(key) =>
      if key == "Escape" then s.(overlay := None, menu := None) else s

    case ContextMenu =>
      if s.menu.Some? && !s.processing then s.(menu := None) else s

    case ToggleClick =>
      s.(menu := TogglePromptButtons(s.menu))

    case HoverEnter =>
      if s.menu.Some? && s.menu.value.openOnHover
      then s.(menu := Some(s.menu.value.(shown := AllShown(|s.menu.value.shown|))))
      else s

    case HoverLeave =>
      if s.menu.Some? && s.menu.value.openOnHover
      then s.(menu := Some(s.menu.value.(shown := AllHidden(|s.menu.value.shown|))))
      else s

    case PromptClick(i, selection) =>
      if s.menu.Some? && s.menu.value.kind.PromptButtons? && i < |s.menu.value.kind.prompts|
         && i < |s.menu.value.shown| && s.menu.value.shown[i]
      then
        var m := s.menu.value;
        s.(menu := Some(m.(shown := AllHidden(|m.shown|), loading := true)),
           processing := true,
           pending := s.pending + [ConfigRead(m.kind.prompts[i], selection)])
      else s

    case SettingsClick =>
      if s.menu.Some? && s.menu.value.kind.SettingsButton? && |s.menu.value.shown| > 0 && s.menu.value.shown[0]
      then s.(menu := None, outbox := s.outbox + [OpenOptions])
      else s

    case ConfigLoaded(k, config, sendError) =>
      if k < |s.pending| && s.pending[k].ConfigRead? then
        var read := s.pending[k];
        var s1 := s.(pending := RemoveAt(s.pending, k));
        if !Configured(config) then
          s1.(outbox := s1.outbox + [Alert(NotConfiguredAlert)])
        else
          match sendError
          case Some(err) => Finish(s1, "Error: " + err)
          case None =>
            var message := CallApiMessage(config.apiUrl.value, config.apiToken.value, config.modelName.value,
                                          FullPrompt(read.prompt, read.selection));
            s1.(outbox := s1.outbox + [CallApi(message)], pending := s1.pending + [AwaitReply(message)])
      else s

    case RelayReply(k, reply) =>
      if k < |s.pending| && s.pending[k].AwaitReply? then
        Finish(s.(pending := RemoveAt(s.pending, k)), ReplyText(reply))
      else s

    case ExecutePrompt(promptIndex, selectedText, storedPrompts) =>
      var prompts := storedPrompts.GetOr([]);
      if promptIndex.Some? && 0 <= promptIndex.value < |prompts| then
        s.(pending := s.pending + [ConfigRead(prompts[promptIndex.value], selectedText)])
      else s.(overlay := Some(Overlay(PromptNotFound)))
  }

  /** Applies events in order. */
  function Run(s: State, events: seq<Event>): State
    decreases |events|
  {
    if events == [] then s else Run(Step(s, events[0]), events[1..])
  }

  /** Every step keeps the one-flag-per-button shape of the menu. */
  lemma StepPreservesWellFormed(s: State, e: Event)
    requires WellFormed(s)
    ensures WellFormed(Step(s, e))
  {
  }

  /** A right-button release never touches the state: no menu, no read, no cursor update. */
  lemma RightClickIgnored(s: State, e: Event)
    requires e.MouseUp? && e.button == 2
    ensures Step(s, e) == s
  {
  }

  /**
   * A release with a blank (whitespace-only) selection only records the cursor: no menu
   * is created, the current one is kept, and no settings read starts.
   */
  lemma BlankSelectionOpensNoMenu(s: State, e: Event)
    requires e.MouseUp? && Text.Blank(e.selection)
    ensures Step(s, e).menu == s.menu
    ensures Step(s, e).pending == s.pending
    ensures Step(s, e).outbox == s.outbox
  {
    Text.TrimEmptyIffBlank(e.selection);
  }

  /**
   * The processing gate: while a request is processing, a release creates no menu and
   * starts no read, and an outside click or a context menu leaves the menu in place.
   */
  lemma ProcessingGate(s: State, e: Event)
    requires s.processing
    requires e.MouseUp? || e.MouseDown? || e.ContextMenu?
    ensures Step(s, e).menu == s.menu
    ensures Step(s, e).pending == s.pending
  {
  }

  /** Escape removes both the overlay and the menu, whatever the gate says. */
  lemma EscapeRemovesAll(s: State)
    ensures Step(s, KeyDown("Escape")).menu.None?
    ensures Step(s, KeyDown("Escape")).overlay.None?
    ensures Step(s, KeyDown("Escape")).processing == s.processing
    ensures Step(s, KeyDown("Escape")).pending == s.pending
  {
  }

  /**
   * `executePrompt` with an index that is not a position of the stored list shows
   * `Error: Prompt not found` and neither reads the API settings nor sends anything.
   */
  lemma ExecuteMissingPrompt(s: State, promptIndex: Option<int>, text: string, stored: Option<seq<Prompt>>)
    requires promptIndex.None? || promptIndex.value < 0 || promptIndex.value >= |stored.GetOr([])|
    ensures Step(s, ExecutePrompt(promptIndex, text, stored)).overlay == Some(Overlay(PromptNotFound))
    ensures Step(s, ExecutePrompt(promptIndex, text, stored)).pending == s.pending
    ensures Step(s, ExecutePrompt(promptIndex, text, stored)).outbox == s.outbox
  {
  }

  /** `executePrompt` with a valid index runs that prompt on the given text, without the gate. */
  lemma ExecuteStoredPrompt(s: State, i: nat, text: string, prompts: seq<Prompt>)
    requires i < |prompts|
    ensures Step(s, ExecutePrompt(Some(i), text, Some(prompts)))
         == s.(pending := s.pending + [ConfigRead(prompts[i], text)])
  {
  }

  /**
   * A relay reply clears the gate, removes the menu and shows the reply's text: the
   * message content, the format error, or `Error accessing API: <error>`.
   */
  lemma ReplyFinishes(s: State, k: nat, reply: Relay.ApiResult)
    requires k < |s.pending| && s.pending[k].AwaitReply?
    ensures var t := Step(s, RelayReply(k, reply));
      && !t.processing && t.menu.None?
      && t.overlay == Some(Overlay(ReplyText(reply)))
      && t.pending == RemoveAt(s.pending, k)
      && t.orphanMenus == s.orphanMenus
      && t.outbox == s.outbox
  {
  }

  /**
   * With any of URL, token or model missing, the API-settings callback sends no request,
   * raises the alert, and leaves the gate as it was (set, after a prompt click).
   */
  lemma UnconfiguredSendsNothing(s: State, k: nat, config: ApiConfig, sendError: Option<string>)
    requires k < |s.pending| && s.pending[k].ConfigRead?
    requires !Configured(config)
    ensures var t := Step(s, ConfigLoaded(k, config, sendError));
      && t.outbox == s.outbox + [Alert(NotConfiguredAlert)]
      && t.processing == s.processing
      && t.menu == s.menu
      && t.pending == RemoveAt(s.pending, k)
  {
  }

  /** With the settings present, exactly one `callAPI` goes out, carrying text + blank line + selection. */
  lemma ConfiguredSendsPrompt(s: State, k: nat, config: ApiConfig)
    requires k < |s.pending| && s.pending[k].ConfigRead?
    requires Configured(config)
    ensures var t := Step(s, ConfigLoaded(k, config, None));
      var p := s.pending[k];
      var message := CallApiMessage(config.apiUrl.value, config.apiToken.value, config.modelName.value,
                                    p.prompt.text + "\n\n" + p.selection);
      && t.outbox == s.outbox + [CallApi(message)]
      && t.pending == RemoveAt(s.pending, k) + [AwaitReply(message)]
      && t.processing == s.processing
      && t.menu == s.menu && t.overlay == s.overlay && t.orphanMenus == s.orphanMenus
  {
  }

  /**
   * The gate is only ever set by a click on a displayed prompt button and only ever
   * cleared by a reply or a failed send.
   */
  lemma ProcessingChanges(s: State, e: Event)
    ensures !s.processing && Step(s, e).processing ==> e.PromptClick?
    ensures s.processing && !Step(s, e).processing ==> e.RelayReply? || (e.ConfigLoaded? && e.sendError.Some?)
  {
  }

  /**
   * A context-menu click on the item for prompt `i` reaches this script as an
   * `executePrompt` for index `i`, which runs the `i`-th stored prompt on the selection.
   */
  lemma ContextMenuRunsPrompt(s: State, prompts: seq<Prompt>, i: nat, selection: string)
    requires i < |prompts|
    ensures var action := Relay.RouteClick(Relay.PromptItemId(i), selection);
      && action.SendExecutePrompt?
      && Step(s, ExecutePrompt(action.promptIndex, action.selectedText, Some(prompts)))
         == s.(pending := s.pending + [ConfigRead(prompts[i], selection)])
  {
    Relay.RoutePromptItem(i, selection);
    var action := Relay.RouteClick(Relay.PromptItemId(i), selection);
    assert action == Relay.SendExecutePrompt(Some(i as int), selection);
    ExecuteStoredPrompt(s, i, selection, prompts);
  }

  /** The gate is set and nothing that could clear it is outstanding. */
  predicate Stuck(s: State) {
    && s.processing
    && forall j :: 0 <= j < |s.pending| ==> s.pending[j].MenuRead?
  }

  /**
   * Once stuck, the script stays stuck under every event except a new prompt click on
   * the still-attached menu (the toggle is not gated) or a context-menu `executePrompt`,
   * the two ways to issue a new settings read: in particular no release creates a menu.
   */
  lemma StuckPersists(s: State, e: Event)
    requires Stuck(s) && !e.ExecutePrompt? && !e.PromptClick?
    ensures Stuck(Step(s, e))
  {
    var t := Step(s, e);
    match e {
      case MenuSettingsLoaded(k, _) =>
        if k < |s.pending| && s.pending[k].MenuRead? {
          forall j | 0 <= j < |t.pending| ensures t.pending[j].MenuRead? {
            if j < k { assert t.pending[j] == s.pending[j]; }
            else { assert t.pending[j] == s.pending[j + 1]; }
          }
        }
      case _ =>
    }
  }

  /** A selection whose first character is not whitespace is not trimmed away. */
  lemma NonBlankSelection(selection: string)
    requires |selection| > 0 && !Text.IsWhitespace(selection[0])
    ensures Text.Trim(selection) != []
  {
    Text.TrimEmptyIffBlank(selection);
  }

  /** A prompt and the menu settings that offer it. */
  const Summarize: Prompt := Prompt("Summarize", "Summarize:")
  const OnePrompt: MenuSettings := MenuSettings(Some([Summarize]), None, None)
  const Cursor: Geometry.Point := Geometry.Point(100.0, 100.0)

  /** A left-button release at (100, 100) on an unscrolled page, outside any menu. */
  function ClickRelease(selection: string): Event {
    MouseUp(0, 100.0, 100.0, false, selection, 0.0, 0.0)
  }

  /** What `ClickedSummarizeState` holds: the gate set and one API-settings read outstanding. */
  lemma ClickedSummarize(selection: string) returns (s: State)
    requires |selection| > 0 && !Text.IsWhitespace(selection[0])
    ensures s == ClickedSummarizeState(selection)
    ensures s.processing && s.pending == [ConfigRead(Summarize, selection)] && s.outbox == []
    ensures s.menu.Some? && s.menu.value.loading && s.overlay.None?
  {
    NonBlankSelection(selection);
    var s1 := Step(Initial(), ClickRelease(selection));
    assert s1.pending == [MenuRead(100.0, 100.0)] && s1.menu.None? && !s1.processing;
    var s2 := Step(s1, MenuSettingsLoaded(0, OnePrompt));
    assert s2.menu.Some? && s2.menu.value.kind == PromptButtons([Summarize]) && s2.menu.value.shown == [false];
    assert s2.pending == [] && !s2.processing;
    var s3 := Step(s2, ToggleClick);
    assert s3.menu.value.shown == [true];
    s := Step(s3, PromptClick(0, selection));
  }

  /**
   * A prompt click whose API-settings read finds the token missing leaves the gate set
   * with nothing outstanding that could clear it; a later release only records the cursor.
   */
  lemma MissingConfigLeavesGateSet(selection: string, another: string)
    requires |selection| > 0 && !Text.IsWhitespace(selection[0])
    ensures var s := Step(ClickedSummarizeState(selection), ConfigLoaded(0, ApiConfig(Some("u"), None, Some("m")), None));
      && Stuck(s)
      && s.outbox == [Alert(NotConfiguredAlert)]
      && Step(s, ClickRelease(another)) == s.(lastMouse := Cursor)
  {
    var s4 := ClickedSummarize(selection);
    var s := Step(s4, ConfigLoaded(0, ApiConfig(Some("u"), None, Some("m")), None));
    assert s.pending == [];
  }

  /** An ungated release with a selection removes the menu and starts one settings read. */
  lemma ReleaseStartsRead(s: State, selection: string)
    requires !s.processing && |selection| > 0 && !Text.IsWhitespace(selection[0])
    ensures Step(s, ClickRelease(selection))
         == s.(menu := None, lastMouse := Cursor, pending := s.pending + [MenuRead(100.0, 100.0)])
  {
    NonBlankSelection(selection);
  }

  /** An outstanding settings read builds a menu, orphaning the one referenced before. */
  lemma SettingsReadBuildsMenu(s: State, k: nat, settings: MenuSettings)
    requires k < |s.pending| && s.pending[k].MenuRead?
    ensures var t := Step(s, MenuSettingsLoaded(k, settings));
      && t.menu == Some(NewMenu(s.pending[k].x, s.pending[k].y, settings))
      && t.orphanMenus == s.orphanMenus + (if s.menu.Some? then 1 else 0)
      && t.pending == RemoveAt(s.pending, k)
      && t.processing == s.processing
  {
  }

  /**
   * Two releases before either settings read answers: both reads are outstanding, and
   * when both answer, the first menu stays attached but unreferenced.
   */
  lemma InterleavedReadsOrphanAMenu(a: string, b: string)
    requires |a| > 0 && !Text.IsWhitespace(a[0])
    requires |b| > 0 && !Text.IsWhitespace(b[0])
    ensures var s := Step(Step(Step(Step(Initial(), ClickRelease(a)), ClickRelease(b)),
                               MenuSettingsLoaded(0, OnePrompt)), MenuSettingsLoaded(0, OnePrompt));
      s.menu.Some? && s.orphanMenus == 1 && s.pending == []
  {
    var s1 := Step(Initial(), ClickRelease(a));
    ReleaseStartsRead(Initial(), a);
    var s2 := Step(s1, ClickRelease(b));
    ReleaseStartsRead(s1, b);
    assert s2.pending == [MenuRead(100.0, 100.0), MenuRead(100.0, 100.0)] && s2.menu.None?;
    var s3 := Step(s2, MenuSettingsLoaded(0, OnePrompt));
    SettingsReadBuildsMenu(s2, 0, OnePrompt);
    assert s3.pending == [MenuRead(100.0, 100.0)] && s3.menu.Some? && s3.orphanMenus == 0;
    SettingsReadBuildsMenu(s3, 0, OnePrompt);
  }

  /**
   * End to end: select text, open the menu, click "Summarize" and answer the settings
   * read with complete settings: exactly one request goes out, carrying the prompt text,
   * a blank line and the selection ("Summarize:\n\nhello world" for "hello world"), and
   * the gate stays set until the reply.
   */
  lemma SummarizeSendsOneRequest(selection: string, config: ApiConfig)
    requires |selection| > 0 && !Text.IsWhitespace(selection[0])
    requires Configured(config)
    ensures var s := Step(ClickedSummarizeState(selection), ConfigLoaded(0, config, None));
      var message := CallApiMessage(config.apiUrl.value, config.apiToken.value, config.modelName.value,
                                    "Summarize:" + "\n\n" + selection);
      && s.outbox == [CallApi(message)]
      && s.pending == [AwaitReply(message)]
      && s.processing
  {
    var s4 := ClickedSummarize(selection);
    ConfiguredSendsPrompt(s4, 0, config);
  }

  /** The relay's successful reply then shows the first choice's content and clears the gate. */
  lemma SummarizeReplyShown(s: State, message: CallApiMessage)
    requires s.pending == [AwaitReply(message)]
    ensures var reply := Relay.ApiSuccess(Relay.CompletionData(Some([Relay.Choice(Some(Relay.Message("Hi")))])));
      var t := Step(s, RelayReply(0, reply));
      t.overlay == Some(Overlay("Hi")) && !t.processing && t.menu.None? && t.pending == []
  {
  }

  /** The state after selecting text, loading the menu, opening it and clicking the first prompt. */
  function ClickedSummarizeState(selection: string): State {
    Step(Step(Step(Step(Initial(), ClickRelease(selection)), MenuSettingsLoaded(0, OnePrompt)), ToggleClick),
         PromptClick(0, selection))
  }

  /**
   * A failed relay reply shows `Error accessing API: <error>` and clears the gate, so the
   * next release with a selection starts a new menu.
   */
  lemma FailedReplyScenario(s: State, k: nat, next: string)
    requires k < |s.pending| && s.pending[k].AwaitReply?
    requires |next| > 0 && !Text.IsWhitespace(next[0])
    ensures var t := Step(s, RelayReply(k, Relay.ApiFailure("401 Unauthorized")));
      && t.overlay == Some(Overlay("Error accessing API: 401 Unauthorized"))
      && !t.processing
      && Step(t, ClickRelease(next)).pending == t.pending + [MenuRead(100.0, 100.0)]
  {
    var reply := Relay.ApiFailure("401 Unauthorized");
    var text := ReplyText(reply);
    assert text == "Error accessing API: 401 Unauthorized";
    var t := Step(s, RelayReply(k, reply));
    assert t == Finish(s.(pending := RemoveAt(s.pending, k)), text);
    assert !t.processing;
    ReleaseStartsRead(t, next);
  }
}

=== FILE: sorting.dfy ===
/**
 * Sorting by a comparator the model does not look inside (`localeCompare` in the
 * options page): any total preorder. Insertion sort on sequences, proved to return a
 * sorted permutation of its input.
 */
module Sorting {

  /** `leq` compares every pair and is transitive. */
  ghost predicate IsTotalPreorder<T(!new)>(leq: (T, T) -> bool) {
    && (forall a, b :: leq(a, b) || leq(b, a))
    && (forall a, b, c :: leq(a, b) && leq(b, c) ==> leq(a, c))
  }

  /** Every earlier element is `leq` every later one. */
  ghost predicate SortedBy<T>(s: seq<T>, leq: (T, T) -> bool) {
    forall i, j :: 0 <= i < j < |s| ==> leq(s[i], s[j])
  }

  /** A head no greater than any element of a sorted tail keeps the sequence sorted. */
  lemma SortedCons<T>(h: T, rest: seq<T>, leq: (T, T) -> bool)
    requires SortedBy(rest, leq)
    requires forall j :: 0 <= j < |rest| ==> leq(h, rest[j])
    ensures SortedBy([h] + rest, leq)
  {
    var r := [h] + rest;
    forall i, j | 0 <= i < j < |r| ensures leq(r[i], r[j]) {
      assert r[j] == rest[j - 1];
      if i > 0 { assert r[i] == rest[i - 1]; }
    }
  }

  /** Inserts `x` before the first element it is `leq`, after all elements it is not. */
  function Insert<T(!new)>(x: T, s: seq<T>, leq: (T, T) -> bool): (r: seq<T>)
    requires IsTotalPreorder(leq) && SortedBy(s, leq)
    ensures multiset(r) == multiset(s) + multiset{x}
    ensures forall y :: y in r ==> y == x || y in s
    ensures SortedBy(r, leq)
  {
    if s == [] then [x]
    else if leq(x, s[0]) then
      assert forall j :: 0 <= j < |s| ==> leq(x, s[j]) by {
        forall j | 0 <= j < |s| ensures leq(x, s[j]) {
          if j > 0 { assert leq(s[0], s[j]); }
        }
      }
      SortedCons(x, s, leq);
      [x] + s
    else
      var tail := s[1..];
      assert s == [s[0]] + tail;
      var rest := Insert(x, tail, leq);
      forall j | 0 <= j < |rest| ensures leq(s[0], rest[j]) {
        assert rest[j] in rest;
        if rest[j] != x {
          var k :| 0 <= k < |tail| && tail[k] == rest[j];
          assert s[k + 1] == tail[k];
        }
      }
      SortedCons(s[0], rest, leq);
      [s[0]] + rest
  }

  /** A sorted permutation of `s`. */
  function InsertionSort<T(!new)>(s: seq<T>, leq: (T, T) -> bool): (r: seq<T>)
    requires IsTotalPreorder(leq)
    ensures multiset(r) == multiset(s)
    ensures SortedBy(r, leq)
    ensures |r| == |s|
  {
    if s == [] then []
    else
      assert s == [s[0]] + s[1..];
      Insert(s[0], InsertionSort(s[1..], leq), leq)
  }
}

=== FILE: store.dfy ===
/** Records the extension keeps in its synchronised settings store. */
module Store {
  import opened Wrappers

  /** A saved prompt: a display name and the instruction text sent ahead of the selection. */
  datatype Prompt = Prompt(name: string, text: string)

  /** A stored string setting counts as set when it is present and not empty (JavaScript truthiness). */
  predicate Present(v: Option<string>) {
    v.Some? && v.value != ""
  }
}

=== FILE: text.dfy ===
/**
 * Character classes and string helpers with the meaning JavaScript gives them:
 * `String.prototype.trim`, `startsWith`, `endsWith`, `replace` with a string pattern,
 * and the line terminators that a multiline regular expression's `^`, `$` and `.` see.
 */
module Text {

  /** LineTerminator of ECMA-262: LF, CR, LINE SEPARATOR, PARAGRAPH SEPARATOR. */
  predicate IsLineTerminator(c: char) {
    c == '\n' || c == '\r' || c == '\U{2028}' || c == '\U{2029}'
  }

  /** WhiteSpace or LineTerminator of ECMA-262: what `trim` removes and what `\s` matches. */
  predicate IsWhitespace(c: char) {
    || IsLineTerminator(c)
    || c == '\t' || c == '\U{000B}' || c == '\U{000C}' || c == ' '
    || c == '\U{00A0}' || c == '\U{FEFF}' || c == '\U{1680}'
    || ('\U{2000}' <= c <= '\U{200A}')
    || c == '\U{202F}' || c == '\U{205F}' || c == '\U{3000}'
  }

  /** Every character of `s` is white space (the empty string included). */
  predicate Blank(s: string) {
    forall i :: 0 <= i < |s| ==> IsWhitespace(s[i])
  }

  /** The string has no line terminator, so it is a single line for `^`, `$` and `.`. */
  predicate SingleLine(s: string) {
    forall i :: 0 <= i < |s| ==> !IsLineTerminator(s[i])
  }

  /** Drops leading white space: the result is the longest suffix not starting with white space. */
  function TrimStart(s: string): (r: string)
    ensures |r| <= |s| && r == s[|s| - |r|..]
    ensures r == [] || !IsWhitespace(r[0])
    ensures Blank(s[..|s| - |r|])
  {
    if s != [] && IsWhitespace(s[0]) then
      var t := s[1..];
      var r := TrimStart(t);
      assert s[|s| - |r|..] == t[|t| - |r|..];
      assert s[..|s| - |r|] == [s[0]] + t[..|t| - |r|];
      r
    else s
  }

  /** Drops trailing white space: the result is the longest prefix not ending in white space. */
  function TrimEnd(s: string): (r: string)
    ensures |r| <= |s| && r == s[..|r|]
    ensures r == [] || !IsWhitespace(r[|r| - 1])
    ensures Blank(s[|r|..])
  {
    if s != [] && IsWhitespace(s[|s| - 1]) then
      var t := s[..|s| - 1];
      var r := TrimEnd(t);
      assert s[..|r|] == t[..|r|];
      assert s[|r|..] == t[|r|..] + [s[|s| - 1]];
      r
    else s
  }

  /** No white space at either end. */
  predicate IsTrimmed(s: string) {
    s == [] || (!IsWhitespace(s[0]) && !IsWhitespace(s[|s| - 1]))
  }

  /** `r` is `s` with some white space taken off each end: a slice with only white space around it. */
  predicate IsTrimOf(r: string, s: string) {
    exists k :: 0 <= k <= |s| - |r| && r == s[k..k + |r|] && Blank(s[..k]) && Blank(s[k + |r|..])
  }

  /** `String.prototype.trim`. */
  function Trim(s: string): (r: string)
    ensures IsTrimmed(r)
    ensures IsTrimOf(r, s)
  {
    var a := TrimStart(s);
    var r := TrimEnd(a);
    var k := |s| - |a|;
    assert s[k..k + |r|] == a[..|r|];
    assert s[k + |r|..] == a[|r|..];
    r
  }

  /** A string trims to the empty string exactly when it is all white space. */
  lemma TrimEmptyIffBlank(s: string)
    ensures Trim(s) == [] <==> Blank(s)
  {
    var a := TrimStart(s);
    if Trim(s) == [] {
      assert Blank(a[..0]);
      assert Blank(s[..|s| - |a|]);
      assert a == s[|s| - |a|..];
      forall i | 0 <= i < |s| ensures IsWhitespace(s[i]) {
        if i < |s| - |a| {
          assert s[i] == s[..|s| - |a|][i];
        } else {
          assert s[i] == a[i - (|s| - |a|)];
          assert a[i - (|s| - |a|)] == a[0..][i - (|s| - |a|)];
        }
      }
    } else {
      var r := Trim(s);
      assert r == a[..|r|];
      assert !IsWhitespace(a[0]);
      assert a[0] == s[|s| - |a|];
    }
  }

  /** A string with no white space at either end is its own trim; in particular trimming is idempotent. */
  lemma TrimFixed(s: string)
    requires IsTrimmed(s)
    ensures Trim(s) == s
    ensures Trim(Trim(s)) == Trim(s)
  {
    assert TrimStart(s) == s;
    assert TrimEnd(s) == s;
  }

  /** A non-empty trimmed string is not blank and trims to itself. */
  lemma TrimmedIsKept(s: string)
    requires s != [] && IsTrimmed(s)
    ensures !Blank(s)
    ensures Trim(s) == s
  {
    assert !IsWhitespace(s[0]);
    TrimFixed(s);
  }

  /** `s.startsWith(p)`. */
  predicate StartsWith(s: string, p: string) {
    |p| <= |s| && s[..|p|] == p
  }

  /** `s.endsWith(p)`. */
  predicate EndsWith(s: string, p: string) {
    |p| <= |s| && s[|s| - |p|..] == p
  }

  /** `s.replace(pattern, replacement)` with a string pattern: only the first occurrence is replaced. */
  function ReplaceFirst(s: string, pattern: string, replacement: string): (r: string)
    requires pattern != []
    decreases |s|
  {
    if StartsWith(s, pattern) then replacement + s[|pattern|..]
    else if s == [] then []
    else [s[0]] + ReplaceFirst(s[1..], pattern, replacement)
  }

  /** Replacing a prefix occurrence removes exactly that prefix. */
  lemma ReplaceFirstOfPrefix(s: string, pattern: string, replacement: string)
    requires pattern != [] && StartsWith(s, pattern)
    ensures ReplaceFirst(s, pattern, replacement) == replacement + s[|pattern|..]
  {
  }

  /** Index of the first occurrence of `c` in `s`, if any. */
  function IndexOf(s: string, c: char): (r: nat)
    ensures r <= |s|
    ensures r < |s| ==> s[r] == c
    ensures forall i :: 0 <= i < r ==> s[i] != c
  {
    if s == [] then 0 else if s[0] == c then 0 else 1 + IndexOf(s[1..], c)
  }

  /** Index of the first line terminator in `s`, or `|s|`: where the current line ends. */
  function LineEnd(s: string): (r: nat)
    ensures r <= |s|
    ensures r < |s| ==> IsLineTerminator(s[r])
    ensures SingleLine(s[..r])
  {
    if s == [] then 0
    else if IsLineTerminator(s[0]) then 0
    else
      var k := LineEnd(s[1..]);
      assert s[..k + 1] == [s[0]] + s[1..][..k];
      k + 1
  }
}

=== FILE: wrappers.dfy ===
/** Small failure-carrying datatypes shared by every module of the model. */
module Wrappers {

  /** A value that may be absent: JavaScript's `undefined`/`null` or a missing storage key. */
  datatype Option<+T> = None | Some(value: T) {
    /** The value, or `default` when absent (JavaScript's `x || default` for a present, truthy `x`). */
    function GetOr(default: T): T {
      match this
      case Some(v) => v
      case None => default
    }
  }

  /** Either a computed value or an error (an exception, an error return, a status message). */
  datatype Result<+T, +E> = Ok(value: T) | Err(error: E)
}
